=== FILE: README.md ===
# Recruitment AI Agent — a Dafny model of its core

This project models the core of a small recruitment web service in Dafny. The service summarises a job description (JD), scores uploaded résumés against it and drafts candidate emails. The model covers three parts:

- **The AI client** (`utils/ai_client.py`):
  - the availability gate (`_has_openai`);
  - `chat` and `embed`, with their bounded retry loops and exponential backoff;
  - the deterministic local stand-ins used when no remote backend is usable.
- **Text extraction** (`utils/text_extraction.py`):
  - the default file name and the `splitext` extension check against the allow-list;
  - the temporary-file suffix;
  - per-format dispatch, including the two-step PDF fallback chain;
  - the final strip.
- **The session handlers** (`main.py`):
  - `_init_state`;
  - the guards and state transitions of `jd_summary`, `upload_resumes` and `email_generate`, including `ALLOWED_UPLOADS` and `MAX_FILE_SIZE_MB`.

Modules:

| file | module | content |
|---|---|---|
| `wrappers.dfy` | `Wrappers` | `Option` and `Result` |
| `bits.dfy` | `Bits` | Python's `^` and `&` on non-negative integers, powers of two, and their link to arithmetic modulo 2^k |
| `pystr.dfy` | `PyStr` | `str.isspace`, `strip`, ASCII `lower`, `sep.join`, `posixpath.splitext`, decimal rendering of a `nat` |
| `pyround.dfy` | `PyRound` | `round(x, 2)` on exact reals, half to even |
| `ai_client.dfy` | `AIClient` | `AIClient` and its local stubs |
| `text_extraction.dfy` | `TextExtraction` | `extract_text_from_uploaded_file` and `AllowedExtensionError` |
| `stable_sort.dfy` | `StableSort` | Python's stable `list.sort(key=..., reverse=True)` on a `real` key |
| `app.dfy` | `App` | the application state and the three POST handlers |

Everything the code reaches outside itself becomes a parameter of the model:

- The remote backend is a function from the attempt number (0, 1, …) to the outcome of that attempt. The outcome is a reply, a retryable error (`RateLimitError`, `ServiceUnavailableError`, `APIError`), or any other exception.
- Delays are whole milliseconds.
- The random jitter of each chat retry is a parameter in [0, 100) ms.
- The PDF and DOCX parsers and the UTF-8 decoder are functions of the uploaded bytes. A PDF parser whose import failed is `None`.
- The summariser, the résumé scorer and the two email writers are functions supplied by the caller. Each returns a `Result`, since the Python function may raise.
- The pseudo-random generator of the embedding stub is the parameter `draw(seed, i)`.

A handler returns an HTTP status and the state it leaves behind. A raised `HTTPException` is a non-200 status. Every handler runs `_init_state` first, so even an error leaves the initialised state.

## Model

| member | source | states |
|---|---|---|
| AIClient.NewClientRemote | utils/ai_client.py:58-67 | A client can use the remote backend iff the `openai` library imported and either the explicit key or, failing that, the environment key is a non-empty string |
| AIClient.Retry | utils/ai_client.py:96-120 | The retry loop makes at most budget+1 attempts. It stops at the first reply or non-retryable error. Every attempt before the last was a retryable failure. There is exactly one sleep between consecutive attempts, and sleep i is the delay for retry i+1. A retryable failure on the last allowed attempt raises the exhaustion error |
| AIClient.RetryExhausts | utils/ai_client.py:112-117 | Retryable failures on every allowed attempt raise after budget+1 attempts and budget sleeps |
| AIClient.RetrySucceeds | utils/ai_client.py:98-117 | After k ≤ budget retryable failures, a reply on attempt k+1 is returned, after exactly k sleeps |
| AIClient.RetryStopsOnFatal | utils/ai_client.py:119-120 | A non-retryable error raises at once, with no further attempt and no further sleep |
| AIClient.Chat | utils/ai_client.py:83-120 | An empty message list returns "" with no call. Without a backend the local stub answers with no remote call. Otherwise there are at most max(0, max_retries)+1 attempts, and the i-th sleep lies in [backoff·2^i, backoff·2^i + 100 ms) |
| AIClient.EmptyPromptIsOneMessage | utils/ai_client.py:85-94 | A string prompt, even "", becomes one user message. It never takes the empty-list exit, and the stub reports 0 characters |
| AIClient.ChatExhausts | utils/ai_client.py:112-115 | max_retries+1 retryable failures in a row raise, after max_retries sleeps |
| AIClient.ReplyText | utils/ai_client.py:106-110 | The reply text is the content, or the `text` attribute when the content is missing, with its edge whitespace cut: a slice of it with only whitespace outside and none at its edges |
| AIClient.ChatSucceedsAfterRetries | utils/ai_client.py:105-117 | A reply after k ≤ max(0, max_retries) retryable failures is returned stripped, with content falling back to the `text` attribute. Sleep i is exactly backoff·2^i plus the jitter of retry i+1 |
| AIClient.ChatFatalRaisesAtOnce | utils/ai_client.py:119-120 | An unexpected error on the first attempt raises after one attempt and no sleep |
| AIClient.ChatSettles | utils/ai_client.py:96-120 | With a backend and a non-empty message list there is at least one attempt, and every attempt before the last was retryable. The last attempt decides: a reply gives its stripped text, a non-retryable error raises at once, and a retryable error raises only when the budget is spent |
| AIClient.ChatStopsOnFatal | utils/ai_client.py:112-120 | k ≤ max_retries retryable failures followed by a non-retryable error raise that error after k+1 attempts and k sleeps, with no further attempt |
| AIClient.ChatTotalSleep | utils/ai_client.py:116-117 | The total time slept over k retries lies between backoff·(2^k − 1) and that plus 100 ms per retry |
| AIClient.StubReplyRoundTrip | utils/ai_client.py:163 | The stub reply format is unambiguous: parsing a formatted reply gives back its count and excerpt |
| AIClient.LocalChatStub | utils/ai_client.py:154-163 | The reply parses, and it is the canonical rendering of what it parses to (no leading zeros in the count). For n ≥ 1 messages its count is the total content length plus 3·(n−1), where a missing content counts as "". Its echo is the first min(500, len) characters of the stripped join |
| AIClient.JoinedContentsLength | utils/ai_client.py:160 | Joining n ≥ 1 contents with " \n " gives their total length plus 3·(n−1) |
| Bits.XorMod | utils/ai_client.py:175 | The low k bits of a ^ b depend only on the low k bits of a and b |
| Bits.AndLowMask | utils/ai_client.py:176 | n & (2^k − 1) equals n mod 2^k |
| AIClient.PySeed | utils/ai_client.py:173-175 | Python's unbounded seed fold, reduced mod 2^32, equals the same fold carried out in a 32-bit word |
| AIClient.MaskedSeedIsSeed32 | utils/ai_client.py:173-176 | `seed & 0xFFFFFFFF` equals the 32-bit wrapping fold of the text, so the generator seed depends only on the text |
| AIClient.LocalEmbedStub | utils/ai_client.py:165-179 | The pseudo-embedding has min(dim, 512) elements. Element i is draw i of the generator seeded with the 32-bit seed of the text |
| AIClient.Embed | utils/ai_client.py:122-151 | Empty text returns [] with no call. Without a backend it returns the 512-element stub. Otherwise there are at most 4 attempts, every attempt before the last was a retryable failure, the last attempt's embedding is returned (a non-retryable error or a retryable one on the fourth attempt raises), and sleep i is exactly 500·2^i ms |
| AIClient.EmbedSucceedsAfterRetries | utils/ai_client.py:136-148 | After k ≤ 3 retryable failures, the embedding of attempt k+1 is returned after k+1 calls, sleep i lasting 500·2^i ms |
| AIClient.EmbedExhausts | utils/ai_client.py:136-148 | Four retryable failures raise after sleeping 500, 1000 and 2000 ms |
| AIClient.EmbedFatalRaisesAtOnce | utils/ai_client.py:150-151 | An unexpected error raises after one attempt and no sleep |
| PyStr.IsSpaceTable | utils/text_extraction.py:75 | The whitespace `strip` removes is exactly Python's 29 `isspace` characters: \t \n \v \f \r, U+001C–U+001F, space, U+0085, U+00A0, U+1680, U+2000–U+200A, U+2028, U+2029, U+202F, U+205F, U+3000 |
| PyStr.LStrip | utils/text_extraction.py:75 | The result is a suffix of the input, everything dropped is whitespace, and the result does not start with whitespace |
| PyStr.RStrip | utils/text_extraction.py:75 | The result is a prefix of the input, everything dropped is whitespace, and the result does not end with whitespace |
| PyStr.Strip | utils/text_extraction.py:75 | The result is the part of the input that starts where the leading whitespace ends. Every character dropped on either side is whitespace, and no whitespace is left at either edge |
| PyStr.StripEmptyIff | main.py:57 | `s.strip()` is empty exactly when every character of s is whitespace |
| PyStr.StripIdempotent | utils/text_extraction.py:75 | Stripping a stripped string changes nothing |
| PyStr.JoinLength | utils/ai_client.py:160 | The length of `sep.join(parts)` is the parts' total length plus \|sep\| per gap |
| PyStr.JoinEmptyIff | utils/text_extraction.py:58 | Joining with a non-empty separator gives "" exactly when there are no parts or a single empty part |
| PyStr.SplitJoin | utils/text_extraction.py:67 | Splitting `c.join(parts)` at `c` gives back a non-empty list of parts when no part contains `c` (an empty list joins to "", which splits to `[""]`) |
| PyStr.Splitext | utils/text_extraction.py:32 | The root and extension concatenate to the path. There is an extension iff the last path component has a dot preceded by a non-dot character of that component, and then the extension runs from the last dot to the end |
| PyStr.DecimalRoundTrip | utils/ai_client.py:163 | Reading back the decimal rendering of n gives n |
| PyRound.RoundHalfEven | main.py:103 | The result is an integer within 1/2 of the input, and even when the input lies exactly halfway |
| PyRound.RoundHalfEvenUnique | main.py:103 | Those two facts leave no choice: any integer meeting them is the rounded value |
| PyRound.RoundHalfEvenMonotone | main.py:103 | Rounding never puts a smaller value above a larger one |
| PyRound.Round2 | main.py:103 | `round(x, 2)` is a whole number of hundredths, at most 0.005 away from x, and an even number of hundredths when x lies exactly halfway |
| PyRound.Round2Monotone | main.py:103 | `round(·, 2)` preserves the order of its inputs, so it can only turn distinct scores into ties |
| PyRound.Round2Idempotent | main.py:103 | Rounding a rounded value changes nothing |
| PyRound.Round2Ties | main.py:103 | 50.001 and 50.003 both round to 50.0: close scores become equal keys, which the sort leaves in upload order |
| TextExtraction.FileName | utils/text_extraction.py:31 | The name used is never empty: it is the given name when that is a non-empty string, and "uploaded" otherwise |
| TextExtraction.TempSuffix | utils/text_extraction.py:39 | The suffix is always an allowed extension, and it equals the extension whenever the extension is allowed |
| TextExtraction.PdfText | utils/text_extraction.py:45-62 | A PDF yields non-empty text or raises. pdfminer's non-empty text is taken as is. Only the "no PDF text" error can arise |
| TextExtraction.ExtractText | utils/text_extraction.py:26-75 | The file is rejected with `AllowedExtensionError(ext)` iff the lower-cased extension of its name (default "uploaded") is not .pdf/.docx/.txt. Each parser error belongs to its own format. A .txt file gives its stripped decoded text. Every returned text is already stripped |
| TextExtraction.RejectionIgnoresContent | utils/text_extraction.py:31-37 | A rejected extension is rejected whatever the bytes and parsers are |
| TextExtraction.MissingNameRejected | utils/text_extraction.py:31-37 | A missing or empty file name becomes "uploaded", which has no extension and is rejected with ext "" |
| TextExtraction.ExtensionExamples | utils/text_extraction.py:32 | ".pdf" and "..pdf" have no extension (leading dots), a dot in a directory name is not an extension, and "Resume.PDF" has the extension ".pdf" |
| TextExtraction.PdfSecondStepUnused | utils/text_extraction.py:48-53 | When pdfminer yields text, PyPDF2 is never consulted, and the stripped pdfminer text is returned |
| TextExtraction.PdfFallsBackToPages | utils/text_extraction.py:53-62 | When pdfminer is missing, raises or yields nothing, the pages are joined by newlines, with a `None` page as "". The call raises iff that join is empty |
| TextExtraction.PdfBothStepsFail | utils/text_extraction.py:48-62 | With no text from pdfminer and PyPDF2 missing or raising, the call raises |
| TextExtraction.PdfBlankTextReturnsEmpty | utils/text_extraction.py:57-75 | Emptiness is checked before stripping: two blank pages give "\n", which passes, and the call returns "" |
| TextExtraction.DocxParagraphsInOrder | utils/text_extraction.py:64-67 | DOCX text is the stripped newline-join of the paragraphs. For at least one paragraph and no embedded newlines, the paragraphs can be recovered, in order, from the join before it is stripped |
| TextExtraction.DocxFailureRaises | utils/text_extraction.py:64-69 | A DOCX parse failure raises, with no fallback |
| StableSort.SortDesc | main.py:108 | The result is a permutation of the input, sorted by key descending, and entries with equal keys keep their input order |
| StableSort.SortDescUnique | main.py:108 | Any descending arrangement that keeps each equal-key group in input order is the sorted result, so the result is fully determined |
| App.InitState | main.py:31-35 | Missing fields are created as `{text: "", summary: ""}` and `[]`. Existing fields are left untouched |
| App.InitStateIdempotent | main.py:31-35 | Initialising twice is the same as initialising once |
| App.JdSummary | main.py:53-64 | 400 iff the stripped text is empty. 200 iff it is non-empty and the summariser succeeds; the JD then becomes (stripped text, summary) and the results are cleared. Any non-200 leaves the state as initialised |
| App.ExtractAndScore | main.py:88-106 | The extractor's extension error gives 415, and only for a name outside its allow-list; any other extraction error gives 422. A scorer error gives 500. Otherwise the entry holds the file's name, the scorer's value ×100 rounded to two decimals, and the scorer's details |
| App.ProcessFile | main.py:81-106 | 415 iff the extension is not allowed. 413 iff the extension is allowed and the declared size exceeds 10·1024·1024. Otherwise the outcome is that of extraction and scoring |
| App.AllowedNameReachesParser | main.py:82-91 | A name that passes the upload allow-list also passes the extractor's, so the extractor's extension error cannot occur here |
| App.ScoreBatch | main.py:80-106 | Success iff every file succeeds, with one entry per file in upload order. On failure, the status is that of the first failing file, and all earlier files succeeded |
| App.UploadResumes | main.py:71-109 | 400 without a JD or without files. With both, 200 iff every file of the batch succeeds, and a failing batch answers with the first failing file's status. Any non-200 leaves the results untouched. On 200 the new results replace the old ones: one entry per file, a permutation of the batch, sorted by stored score descending, with ties in upload order |
| App.FailedBatchKeepsResults | main.py:80-109 | If any file in the batch fails, the stored results are exactly those before the request |
| App.UploadIgnoresOldResults | main.py:74-109 | The status of an upload does not depend on the previously stored results, and a successful upload's response does not depend on them at all |
| App.SizeLimitInclusive | main.py:85-86 | A file of exactly 10 MiB, of declared size 0 or of unknown size never gets 413 |
| App.EmailGenerate | main.py:117-134 | 400 iff the type is not "interview" or "rejection" or the stripped name is empty. Otherwise 200 iff the chosen writer succeeds, and 500 when it raises. An email is returned exactly on 200. An interview email gets the stripped name and the current JD text, and a rejection email gets only the name. The state is never changed |
| App.RejectionIgnoresJd | main.py:133-134 | The status and the rejection email are the same whatever the stored JD |

## Left out

- **I/O and external services**:
  - Network calls, `time.sleep`, `random.random`, `load_dotenv` and `os.getenv` are parameters: the backend outcome per attempt, sleep lengths in milliseconds, jitter and the environment key.
  - The model, temperature and timeout arguments are passed to the backend unchanged and are not modelled.
- **The Mersenne Twister and floats**:
  - `random.Random(seed).uniform(-1, 1)` is the parameter `draw`.
  - Floats are not modelled: the backoff in seconds becomes whole milliseconds, and the jitter becomes a whole number of milliseconds below 100.
- PyRound.Round2: rounds the exact real value half to even. Python's `round` rounds the binary float, so a value such as 2.675, stored just below itself, rounds down there. The product `score * 100` is likewise exact here, not a float product.
- **Third-party libraries**: pdfminer, PyPDF2 and python-docx are functions of the uploaded bytes; their internals are not modelled. The temporary file and its cleanup become the bytes passed straight to the parser. An I/O error while reading the file is not modelled.
- **Exception messages** are not modelled: only the error kind and the HTTP status are.
- **PDF diagnostics**: the two `print` calls on the PDF fallback path (utils/text_extraction.py:52 and utils/text_extraction.py:60) only write to standard output and are not modelled.
- **The process-wide API key**: building a client with a key assigns `openai.api_key` (utils/ai_client.py:64), so the last client built supplies the key for every client's remote calls. The model gives each client its own backend parameter and does not model this shared state; no modelled result depends on it, because the backend is unconstrained.
- **The generator functions**: `generate_jd_summary`, `match_resume_to_jd`, `generate_interview_email` and `generate_rejection_email` are not part of this model. They appear as the parameters `summarize`, `score`, `interview` and `rejection`.
- **The web layer**: FastAPI routing, Jinja2 templates, static files, `async`/`await`, the `home` page and the `candidate_email` form field (only echoed back to the template) are left out. Each handler is modelled as one atomic step. In `main.py` the upload loop re-reads `app.state.jd["text"]` for every file after an `await` (main.py:96), so a `jd_summary` request served in between could change the job description part-way through a batch. The model reads it once per batch.
- PyStr.Lower: lower-cases ASCII letters only, whereas `str.lower` covers all of Unicode. No non-ASCII character lower-cases to a letter of `.pdf`, `.docx` or `.txt`, so allow-list membership, the only use of the extension, is the same.
- AIClient.Seed32: the 32-bit seed is an `int` in [0, 2^32) rather than a `bv32`. The relation to Python's unbounded fold is proved (`AIClient.MaskedSeedIsSeed32`).
- **Missing file names and `None` contents**:
  - An upload with no file name reaches `os.path.splitext(None)` in `main.py` and raises a `TypeError`. The `App.Upload` file name is therefore always a string.
  - A message whose "content" key holds `None` makes the join raise. In the model a missing content counts as "", and a present content is always a string.
- AIClient.Chat: the reply content is modelled as a string or absent. A backend whose `text` attribute is itself `None` is not modelled.
- AIClient.Chat: `retry_backoff` is a `nat` of milliseconds. A negative `retry_backoff` makes `time.sleep` raise `ValueError` on the first retry; that path is not modelled.
- **Behaviour of the code worth knowing**:
  - A PDF from which neither step gets text raises; it does not give the empty string (`TextExtraction.PdfBothStepsFail`).
  - There is no OCR step.
  - The batch stops at the first failing file, with that file's HTTP status (`App.ScoreBatch`).
  - Exhausted or rejected remote calls raise; `chat` and `embed` fall back to the local stubs only when no remote backend is usable (`AIClient.Retry`).

=== FILE: ai_client.dfy ===
/**
  Model of `AIClient` in utils/ai_client.py: input normalisation, the
  availability gate, the bounded retry loop with exponential backoff, and
  the deterministic local stand-ins used when no remote backend is usable.

  The remote backend is a function from attempt number (0, 1, ...) to the
  outcome of that attempt; delays are whole milliseconds; the random jitter
  of each chat retry is a parameter in [0, 100).
*/
module AIClient {
  import opened Wrappers
  import opened PyStr
  import opened Bits

  // ---------------------------------------------------------------------
  // Availability gate

  /** What the client holds: whether the `openai` package imported, and its key. */
  datatype Client = Client(libraryPresent: bool, apiKey: Option<string>)

  /** Python truthiness of an optional string. */
  predicate Truthy(s: Option<string>)
  {
    s.Some? && s.value != ""
  }

  /** `__init__`: the explicit key if truthy, else the environment's `OPENAI_API_KEY`. */
  function NewClient(apiKey: Option<string>, envKey: Option<string>, libraryPresent: bool): Client
  {
    Client(libraryPresent, if Truthy(apiKey) then apiKey else envKey)
  }

  /** `_has_openai`. */
  predicate HasRemote(c: Client)
  {
    c.libraryPresent && Truthy(c.apiKey)
  }

  /** A client can reach the remote backend iff the library is there and some key is non-empty. */
  lemma NewClientRemote(apiKey: Option<string>, envKey: Option<string>, libraryPresent: bool)
    ensures HasRemote(NewClient(apiKey, envKey, libraryPresent))
            <==> libraryPresent && (Truthy(apiKey) || Truthy(envKey))
  {
  }

  // ---------------------------------------------------------------------
  // Retry loop

  /** Outcome of one remote attempt. */
  datatype Outcome<T> = Ok(value: T) | Transient | Fatal

  /** Why a call raised: retries exhausted, or an error that is never retried. */
  datatype Failure = RetriesExhausted | Unexpected

  /** A finished call: its result, how many remote attempts it made, and the sleeps between them. */
  datatype Call<T> = Call(result: Result<T, Failure>, remoteCalls: nat, sleepsMs: seq<nat>)

  /** How the last attempt of a call decides its result. */
  ghost predicate Settles<T>(last: Outcome<T>, budgetSpent: bool, result: Result<T, Failure>)
  {
    match last
    case Ok(v) => result == Success(v)
    case Fatal => result == Failure(Unexpected)
    case Transient => budgetSpent && result == Failure(RetriesExhausted)
  }

  /**
    The `while True` loop from attempt number `attempt` on: each transient
    failure bumps the counter, raises once the counter exceeds the budget,
    and otherwise sleeps `delay(counter)` before the next attempt. The call
    stops at the first attempt that is not transient or that spends the budget.
  */
  function Retry<T>(backend: nat -> Outcome<T>, budget: nat, delay: nat -> nat, attempt: nat): (c: Call<T>)
    requires attempt <= budget
    ensures attempt < c.remoteCalls <= budget + 1
    ensures |c.sleepsMs| == c.remoteCalls - 1 - attempt
    ensures forall i :: 0 <= i < |c.sleepsMs| ==> c.sleepsMs[i] == delay(attempt + i + 1)
    ensures forall i :: attempt <= i < c.remoteCalls - 1 ==> backend(i).Transient?
    ensures Settles(backend(c.remoteCalls - 1), c.remoteCalls == budget + 1, c.result)
    decreases budget - attempt
  {
    match backend(attempt)
    case Ok(v) => Call(Success(v), attempt + 1, [])
    case Fatal => Call(Failure(Unexpected), attempt + 1, [])
    case Transient =>
      if attempt + 1 > budget then Call(Failure(RetriesExhausted), attempt + 1, [])
      else
        var rest := Retry(backend, budget, delay, attempt + 1);
        Call(rest.result, rest.remoteCalls, [delay(attempt + 1)] + rest.sleepsMs)
  }

  /** Retries a negative `max_retries` allows: the first transient failure already exceeds it. */
  function Budget(maxRetries: int): nat
  {
    if maxRetries < 0 then 0 else maxRetries
  }

  /** Transient failures on every allowed attempt make the call raise after `budget` sleeps. */
  lemma RetryExhausts<T>(backend: nat -> Outcome<T>, budget: nat, delay: nat -> nat)
    requires forall i :: 0 <= i <= budget ==> backend(i).Transient?
    ensures var c := Retry(backend, budget, delay, 0);
            c.result == Failure(RetriesExhausted) && c.remoteCalls == budget + 1
            && |c.sleepsMs| == budget
  {
  }

  /** After `k` transient failures within budget, the first success is returned. */
  lemma RetrySucceeds<T>(backend: nat -> Outcome<T>, budget: nat, delay: nat -> nat, k: nat)
    requires k <= budget
    requires forall i :: 0 <= i < k ==> backend(i).Transient?
    requires backend(k).Ok?
    ensures var c := Retry(backend, budget, delay, 0);
            c.result == Success(backend(k).value) && c.remoteCalls == k + 1 && |c.sleepsMs| == k
  {
  }

  /** A non-transient error after `k` transient ones raises at once: no further attempt, no sleep. */
  lemma RetryStopsOnFatal<T>(backend: nat -> Outcome<T>, budget: nat, delay: nat -> nat, k: nat)
    requires k <= budget
    requires forall i :: 0 <= i < k ==> backend(i).Transient?
    requires backend(k).Fatal?
    ensures var c := Retry(backend, budget, delay, 0);
            c.result == Failure(Unexpected) && c.remoteCalls == k + 1 && |c.sleepsMs| == k
  {
  }

  // ---------------------------------------------------------------------
  // chat

  /** One chat message; `content` is `None` when the dict has no "content" key. */
  datatype Message = Message(role: string, content: Option<string>)

  /** `prompt_or_messages`: a bare prompt or a list of messages. */
  datatype ChatInput = Prompt(text: string) | Messages(messages: seq<Message>)

  /** `choices[0]`: the message content if present, and the `text` attribute (default ""). */
  datatype ChatReply = ChatReply(content: Option<string>, text: string)

  /** Random jitter of one retry, in milliseconds: `random.random() * 0.1` seconds. */
  type Jitter = j: nat | j < 100

  function Normalize(input: ChatInput): seq<Message>
  {
    match input
    case Prompt(p) => [Message("user", Some(p))]
    case Messages(ms) => ms
  }

  /** Sleep before chat retry `k` (k >= 1): `retry_backoff * 2^(k-1)` plus jitter. */
  function ChatDelay(backoffMs: nat, jitter: nat -> Jitter, k: nat): nat
  {
    if k == 0 then 0 else backoffMs * Pow2(k - 1) + jitter(k)
  }

  /** The reply's content, or its `text` attribute when the content is missing. */
  function RawReply(reply: ChatReply): string
  {
    if reply.content.Some? then reply.content.value else reply.text
  }

  /**
    `content.strip()` on the raw reply: the returned text is the raw text
    with its edge whitespace cut.
  */
  function ReplyText(reply: ChatReply): (r: string)
    ensures StrippedFrom(RawReply(reply), |RawReply(reply)| - |LStrip(RawReply(reply))|, r)
  {
    Strip(RawReply(reply))
  }

  /** What one remote attempt yields once its reply is reduced to text. */
  function ReplyOutcome(o: Outcome<ChatReply>): Outcome<string>
  {
    match o
    case Ok(reply) => Ok(ReplyText(reply))
    case Transient => Transient
    case Fatal => Fatal
  }

  function MapText(r: Result<ChatReply, Failure>): Result<string, Failure>
  {
    match r
    case Success(reply) => Success(ReplyText(reply))
    case Failure(e) => Failure(e)
  }

  /**
    `AIClient.chat`. An empty message list answers "" before anything else;
    without a usable backend the local stub answers with no remote call;
    otherwise the retry loop runs with budget `max_retries`.
  */
  function Chat(client: Client, input: ChatInput, maxRetries: int, backoffMs: nat,
                jitter: nat -> Jitter, backend: nat -> Outcome<ChatReply>): (c: Call<string>)
    ensures Normalize(input) == [] ==> c == Call(Success(""), 0, [])
    ensures Normalize(input) != [] && !HasRemote(client) ==>
              c.remoteCalls == 0 && c.sleepsMs == [] && c.result.Success?
              && StubAnswers(c.result.value, Normalize(input))
    ensures c.remoteCalls <= Budget(maxRetries) + 1
    ensures c.remoteCalls > 0 ==> |c.sleepsMs| == c.remoteCalls - 1
    ensures c.remoteCalls == 0 ==> c.sleepsMs == [] && c.result.Success?
    ensures forall i :: 0 <= i < |c.sleepsMs| ==>
              backoffMs * Pow2(i) <= c.sleepsMs[i] < backoffMs * Pow2(i) + 100
  {
    var messages := Normalize(input);
    if messages == [] then Call(Success(""), 0, [])
    else if !HasRemote(client) then Call(Success(LocalChatStub(messages)), 0, [])
    else
      var run := Retry(backend, Budget(maxRetries), k => ChatDelay(backoffMs, jitter, k), 0);
      Call(MapText(run.result), run.remoteCalls, run.sleepsMs)
  }

  /**
    On the remote path every attempt before the last was retryable, and the
    last attempt settles the call: its reply's stripped text is returned, a
    non-retryable error raises at once, and a retryable one raises only with
    the budget spent.
  */
  lemma ChatSettles(client: Client, input: ChatInput, maxRetries: int, backoffMs: nat,
                    jitter: nat -> Jitter, backend: nat -> Outcome<ChatReply>)
    requires HasRemote(client) && Normalize(input) != []
    ensures var c := Chat(client, input, maxRetries, backoffMs, jitter, backend);
            && c.remoteCalls > 0
            && (forall i :: 0 <= i < c.remoteCalls - 1 ==> backend(i).Transient?)
            && Settles(ReplyOutcome(backend(c.remoteCalls - 1)), c.remoteCalls == Budget(maxRetries) + 1, c.result)
  {
    var run := Retry(backend, Budget(maxRetries), k => ChatDelay(backoffMs, jitter, k), 0);
    SettlesText(backend(run.remoteCalls - 1), run.remoteCalls == Budget(maxRetries) + 1, run.result);
  }

  /** Reducing the reply to its text keeps the way the loop settled. */
  lemma SettlesText(last: Outcome<ChatReply>, budgetSpent: bool, result: Result<ChatReply, Failure>)
    requires Settles(last, budgetSpent, result)
    ensures Settles(ReplyOutcome(last), budgetSpent, MapText(result))
  {
  }

  /**
    `k <= max_retries` transient failures then a non-retryable error: the
    chat raises that error after `k + 1` attempts and `k` sleeps, without
    trying again.
  */
  lemma ChatStopsOnFatal(client: Client, input: ChatInput, maxRetries: int, backoffMs: nat,
                         jitter: nat -> Jitter, backend: nat -> Outcome<ChatReply>, k: nat)
    requires HasRemote(client) && Normalize(input) != []
    requires k <= Budget(maxRetries)
    requires forall i :: 0 <= i < k ==> backend(i).Transient?
    requires backend(k).Fatal?
    ensures var c := Chat(client, input, maxRetries, backoffMs, jitter, backend);
            c.result == Failure(Unexpected) && c.remoteCalls == k + 1 && |c.sleepsMs| == k
  {
    ChatSettles(client, input, maxRetries, backoffMs, jitter, backend);
  }

  /**
    A prompt, even an empty one, is one user message: it never takes the
    empty-list exit, and the stub reports zero characters and echoes nothing.
  */
  lemma EmptyPromptIsOneMessage(client: Client, maxRetries: int, backoffMs: nat,
                                jitter: nat -> Jitter, backend: nat -> Outcome<ChatReply>)
    requires !HasRemote(client)
    ensures Chat(client, Prompt(""), maxRetries, backoffMs, jitter, backend) == Call(Success(StubReply(0, "")), 0, [])
  {
    var ms := [Message("user", Some(""))];
    assert Normalize(Prompt("")) == ms;
    assert JoinedContents(ms) == "" by {
      var parts := seq(|ms|, i requires 0 <= i < |ms| => ms[i].content.GetOr(""));
      assert parts == [""];
    }
    assert Take(Strip(""), 500) == "";
  }

  /** `max_retries + 1` transient failures in a row: the chat raises after `max_retries` sleeps. */
  lemma ChatExhausts(client: Client, input: ChatInput, maxRetries: int, backoffMs: nat,
                     jitter: nat -> Jitter, backend: nat -> Outcome<ChatReply>)
    requires HasRemote(client) && Normalize(input) != []
    requires forall i :: 0 <= i <= Budget(maxRetries) ==> backend(i).Transient?
    ensures var c := Chat(client, input, maxRetries, backoffMs, jitter, backend);
            c.result == Failure(RetriesExhausted) && c.remoteCalls == Budget(maxRetries) + 1
            && |c.sleepsMs| == Budget(maxRetries)
  {
    RetryExhausts(backend, Budget(maxRetries), k => ChatDelay(backoffMs, jitter, k));
  }

  /**
    `k <= max_retries` transient failures then a reply: the chat returns the
    stripped reply, and sleep `i` is exactly `retry_backoff * 2^i` plus the
    jitter drawn for retry `i + 1`.
  */
  lemma ChatSucceedsAfterRetries(client: Client, input: ChatInput, maxRetries: int, backoffMs: nat,
                                 jitter: nat -> Jitter, backend: nat -> Outcome<ChatReply>, k: nat)
    requires HasRemote(client) && Normalize(input) != []
    requires k <= Budget(maxRetries)
    requires forall i :: 0 <= i < k ==> backend(i).Transient?
    requires backend(k).Ok?
    ensures var c := Chat(client, input, maxRetries, backoffMs, jitter, backend);
            && c.result == Success(ReplyText(backend(k).value))
            && c.remoteCalls == k + 1 && |c.sleepsMs| == k
            && forall i :: 0 <= i < k ==> c.sleepsMs[i] == backoffMs * Pow2(i) + jitter(i + 1)
  {
    var delay: nat -> nat := k => ChatDelay(backoffMs, jitter, k);
    RetrySucceeds(backend, Budget(maxRetries), delay, k);
    var run := Retry(backend, Budget(maxRetries), delay, 0);
    forall i | 0 <= i < k
      ensures run.sleepsMs[i] == backoffMs * Pow2(i) + jitter(i + 1)
    {
      assert run.sleepsMs[i] == delay(i + 1);
    }
  }

  /** A non-transient error raises at once: one attempt, no sleep. */
  lemma ChatFatalRaisesAtOnce(client: Client, input: ChatInput, maxRetries: int, backoffMs: nat,
                              jitter: nat -> Jitter, backend: nat -> Outcome<ChatReply>)
    requires HasRemote(client) && Normalize(input) != []
    requires backend(0).Fatal?
    ensures Chat(client, input, maxRetries, backoffMs, jitter, backend)
            == Call(Failure(Unexpected), 1, [])
  {
  }

  function Sum(xs: seq<nat>): nat
  {
    if |xs| == 0 then 0 else xs[0] + Sum(xs[1..])
  }

  /**
    Total time slept before a success on attempt `k + 1`: the backoff series
    `retry_backoff * (2^k - 1)` plus at most 100 ms of jitter per retry.
  */
  lemma {:induction false} ChatTotalSleep(c: Call<string>, backoffMs: nat, k: nat)
    requires |c.sleepsMs| == k
    requires forall i :: 0 <= i < k ==>
               backoffMs * Pow2(i) <= c.sleepsMs[i] < backoffMs * Pow2(i) + 100
    ensures backoffMs * (Pow2(k) - 1) <= Sum(c.sleepsMs) <= backoffMs * (Pow2(k) - 1) + 100 * k
  {
    forall i | 0 <= i < k
      ensures Backoff(backoffMs, 0 + i) <= c.sleepsMs[i] < Backoff(backoffMs, 0 + i) + 100
    {
      BackoffIsProduct(backoffMs, i);
    }
    SleepSeries(c.sleepsMs, backoffMs, 0);
    BackoffIsProduct(backoffMs, k);
    assert Backoff(backoffMs, 0) == backoffMs;
    SplitSeries(backoffMs, Pow2(k));
  }

  /** `m` doubled `n` times: the backoff before retry `n + 1`. */
  function Backoff(m: nat, n: nat): nat
  {
    if n == 0 then m else 2 * Backoff(m, n - 1)
  }

  lemma {:induction false} BackoffIsProduct(m: nat, n: nat)
    ensures Backoff(m, n) == m * Pow2(n)
    decreases n
  {
    if n > 0 {
      BackoffIsProduct(m, n - 1);
      DoubleRight(m, Pow2(n - 1));
    }
  }

  lemma DoubleRight(m: nat, p: nat)
    ensures 2 * (m * p) == m * (2 * p)
  {
  }

  lemma SplitSeries(m: nat, p: nat)
    ensures m * p - m == m * (p - 1)
  {
  }

  /**
    Sleeps each within 100 ms above a backoff that doubles from
    `Backoff(m, j)` on add up to the geometric sum, plus at most 100 ms each.
  */
  lemma {:induction false} SleepSeries(xs: seq<nat>, m: nat, j: nat)
    requires forall i :: 0 <= i < |xs| ==> Backoff(m, j + i) <= xs[i] < Backoff(m, j + i) + 100
    ensures Backoff(m, j + |xs|) - Backoff(m, j) <= Sum(xs)
            <= Backoff(m, j + |xs|) - Backoff(m, j) + 100 * |xs|
    decreases |xs|
  {
    if |xs| > 0 {
      var rest := xs[1..];
      forall i | 0 <= i < |rest|
        ensures Backoff(m, j + 1 + i) <= rest[i] < Backoff(m, j + 1 + i) + 100
      {
        assert rest[i] == xs[i + 1] && j + 1 + i == j + (i + 1);
      }
      SleepSeries(rest, m, j + 1);
      assert j + 1 + |rest| == j + |xs|;
      assert Backoff(m, j + 1) == 2 * Backoff(m, j);
      assert xs[0] == xs[0 + 0] && Backoff(m, j + 0) == Backoff(m, j);
    }
  }

  // ---------------------------------------------------------------------
  // Local chat stub

  const StubHeader: string := "[local-fallback] received "
  const StubMiddle: string := " chars; echo: "

  /** Contents joined by " \n ", a missing content counting as "". */
  function JoinedContents(messages: seq<Message>): string
  {
    Join(" \n ", seq(|messages|, i requires 0 <= i < |messages| => messages[i].content.GetOr("")))
  }

  function ContentLength(messages: seq<Message>): nat
  {
    if |messages| == 0 then 0 else |messages[0].content.GetOr("")| + ContentLength(messages[1..])
  }

  function Take(s: string, n: nat): (r: string)
  {
    if |s| <= n then s else s[..n]
  }

  /** The reply text: header, the joined length in decimal, and the excerpt. */
  function StubReply(count: nat, excerpt: string): string
  {
    StubHeader + NatToDecimal(count) + StubMiddle + excerpt
  }

  /** Reads a stub reply back into its count and excerpt. */
  function ParseStubReply(s: string): Option<(nat, string)>
  {
    if |s| < |StubHeader| || s[..|StubHeader|] != StubHeader then None
    else
      var rest := s[|StubHeader|..];
      var n := DigitRun(rest);
      var tail := rest[n..];
      if n == 0 || |tail| < |StubMiddle| || tail[..|StubMiddle|] != StubMiddle then None
      else
        assert forall i :: 0 <= i < n ==> IsDigit(rest[..n][i]) by {
          DigitRunIsDigits(rest);
        }
        Some((DecimalValue(rest[..n]), tail[|StubMiddle|..]))
  }

  lemma {:induction false} DigitRunIsDigits(s: string)
    ensures forall i :: 0 <= i < DigitRun(s) ==> IsDigit(s[i])
    decreases |s|
  {
    if |s| > 0 && IsDigit(s[0]) {
      DigitRunIsDigits(s[1..]);
    }
  }

  /** The stub format is unambiguous: parsing a reply recovers what was formatted. */
  lemma StubReplyRoundTrip(count: nat, excerpt: string)
    ensures ParseStubReply(StubReply(count, excerpt)) == Some((count, excerpt))
  {
    var d := NatToDecimal(count);
    var s := StubReply(count, excerpt);
    assert s[..|StubHeader|] == StubHeader;
    var rest := s[|StubHeader|..];
    assert rest == d + (StubMiddle + excerpt);
    DigitRunOf(d, StubMiddle + excerpt);
    assert rest[..|d|] == d;
    assert rest[|d|..] == StubMiddle + excerpt;
    DecimalRoundTrip(count);
  }

  /**
    What a stub reply to `messages` says: it reads back as a count and an
    excerpt; for a non-empty list the count is the total content length plus
    three characters per " \n " separator, and the excerpt is the first (at
    most) 500 characters of the stripped join.
  */
  predicate StubAnswers(r: string, messages: seq<Message>)
  {
    && ParseStubReply(r).Some?
    && (|messages| > 0 ==>
          ParseStubReply(r).value.0 == ContentLength(messages) + 3 * (|messages| - 1))
    && r == StubReply(ParseStubReply(r).value.0, ParseStubReply(r).value.1)
    && var e, full := ParseStubReply(r).value.1, Strip(JoinedContents(messages));
       |e| == (if |full| < 500 then |full| else 500) && e == full[..|e|]
  }

  /**
    `_local_chat_stub`: formats `len(joined)` and the excerpt of the
    stripped join into the fallback reply.
  */
  function LocalChatStub(messages: seq<Message>): (r: string)
    ensures StubAnswers(r, messages)
  {
    var joined := JoinedContents(messages);
    var full := Strip(joined);
    var excerpt := Take(full, 500);
    assert |excerpt| == (if |full| < 500 then |full| else 500) && excerpt == full[..|excerpt|];
    StubReplyRoundTrip(|joined|, excerpt);
    JoinedContentsLength(messages);
    StubReply(|joined|, excerpt)
  }

  lemma JoinedContentsLength(messages: seq<Message>)
    ensures |messages| > 0 ==>
              |JoinedContents(messages)| == ContentLength(messages) + 3 * (|messages| - 1)
  {
    if |messages| > 0 {
      var parts := seq(|messages|, i requires 0 <= i < |messages| => messages[i].content.GetOr(""));
      JoinLength(" \n ", parts);
      PartsLength(messages, parts);
    }
  }

  lemma {:induction false} PartsLength(messages: seq<Message>, parts: seq<string>)
    requires |parts| == |messages|
    requires forall i :: 0 <= i < |messages| ==> parts[i] == messages[i].content.GetOr("")
    ensures TotalLength(parts) == ContentLength(messages)
    decreases |messages|
  {
    if |messages| > 0 {
      PartsLength(messages[1..], parts[1..]);
    }
  }

  // ---------------------------------------------------------------------
  // Local embedding stub

  const Multiplier: nat := 1315423911

  /**
    The seed exactly as Python folds it, an unbounded integer. Its low 32
    bits are the 32-bit wrapping fold of the same text.
  */
  function PySeed(text: string): (r: nat)
    ensures r % Word == Seed32(text)
    decreases |text|
  {
    if |text| == 0 then 0
    else
      SeedStep(PySeed(text[..|text| - 1]), Seed32(text[..|text| - 1]), text[|text| - 1]);
      Xor(PySeed(text[..|text| - 1]) * Multiplier, text[|text| - 1] as int)
  }

  /** One fold step preserves agreement modulo 2^32 between the unbounded and the wrapped seed. */
  lemma SeedStep(p: nat, s: Word32, ch: char)
    requires p % Word == s
    ensures Xor(p * Multiplier, ch as int) % Word == Xor((s * Multiplier) % Word, ch as int)
  {
    Pow2Word();
    CharFitsWord(ch);
    XorMod(p * Multiplier, ch as int, 32);
    MulMod(p, Multiplier, Word);
    ModUnique(ch as int, Word, 0, ch as int);
  }

  /** The same fold carried out in a 32-bit word, wrapping after every step. */
  function Seed32(text: string): (r: Word32)
  {
    if |text| == 0 then 0
    else
      var s := (Seed32(text[..|text| - 1]) * Multiplier) % Word;
      Pow2Word();
      CharFitsWord(text[|text| - 1]);
      XorBound(s, text[|text| - 1] as int, 32);
      Xor(s, text[|text| - 1] as int)
  }

  lemma CharFitsWord(c: char)
    ensures c as int < Pow2(32)
  {
    Pow2Word();
  }

  /** `seed & 0xFFFFFFFF`, the value `random.Random` is seeded with. */
  function MaskedSeed(text: string): nat
  {
    And(PySeed(text), 0xFFFF_FFFF)
  }

  /**
    Masking the unbounded Python fold gives the 32-bit wrapping fold: the
    seed depends only on the text and fits in a 32-bit word.
  */
  lemma {:induction false} MaskedSeedIsSeed32(text: string)
    ensures MaskedSeed(text) == Seed32(text)
  {
    Pow2Word();
    AndLowMask(PySeed(text), 32);
  }

  /** Length of the local pseudo-embedding: `min(dim, 512)`, and nothing for `dim <= 0`. */
  function StubLength(dim: int): nat
  {
    if dim <= 0 then 0 else if dim < 512 then dim else 512
  }

  /**
    `_local_embed_stub`: element `i` is draw `i` of the generator seeded with
    the masked seed; the generator itself is the parameter `draw`.
  */
  function LocalEmbedStub<F>(text: string, dim: int, draw: (Word32, nat) -> F): (r: seq<F>)
    ensures |r| == StubLength(dim) && |r| <= 512
    ensures forall i :: 0 <= i < |r| ==> r[i] == draw(Seed32(text), i)
  {
    MaskedSeedIsSeed32(text);
    var seed: Word32 := MaskedSeed(text);
    seq(StubLength(dim), i requires 0 <= i < StubLength(dim) => draw(seed, i))
  }

  // ---------------------------------------------------------------------
  // embed

  /** Sleep before embedding retry `k` (k >= 1): `0.5 * 2^(k-1)` seconds, no jitter. */
  function EmbedDelay(k: nat): nat
  {
    if k == 0 then 0 else 500 * Pow2(k - 1)
  }

  const EmbedRetries: nat := 3

  /**
    `AIClient.embed`. Empty text answers [] before anything else; without a
    usable backend the 512-long local stub answers; otherwise at most four
    attempts, sleeping 500, 1000 and 2000 ms between them.
  */
  function Embed<F>(client: Client, text: string, backend: nat -> Outcome<seq<F>>,
                    draw: (Word32, nat) -> F): (c: Call<seq<F>>)
    ensures text == "" ==> c == Call(Success([]), 0, [])
    ensures text != "" && !HasRemote(client) ==>
              c.remoteCalls == 0 && c.sleepsMs == []
              && c.result == Success(LocalEmbedStub(text, 1536, draw)) && |c.result.value| == 512
    ensures c.remoteCalls <= EmbedRetries + 1
    ensures c.remoteCalls > 0 ==> |c.sleepsMs| == c.remoteCalls - 1
    ensures forall i :: 0 <= i < |c.sleepsMs| ==> c.sleepsMs[i] == 500 * Pow2(i)
    ensures text != "" && HasRemote(client) ==>
              && c.remoteCalls > 0
              && (forall i :: 0 <= i < c.remoteCalls - 1 ==> backend(i).Transient?)
              && Settles(backend(c.remoteCalls - 1), c.remoteCalls == EmbedRetries + 1, c.result)
  {
    if text == "" then Call(Success([]), 0, [])
    else if !HasRemote(client) then Call(Success(LocalEmbedStub(text, 1536, draw)), 0, [])
    else Retry(backend, EmbedRetries, EmbedDelay, 0)
  }

  /** Four transient failures in a row: the embedding raises after sleeping 500, 1000, 2000 ms. */
  lemma EmbedExhausts<F>(client: Client, text: string, backend: nat -> Outcome<seq<F>>,
                         draw: (Word32, nat) -> F)
    requires HasRemote(client) && text != ""
    requires forall i :: 0 <= i <= EmbedRetries ==> backend(i).Transient?
    ensures Embed(client, text, backend, draw) == Call(Failure(RetriesExhausted), 4, [500, 1000, 2000])
  {
    RetryExhausts(backend, EmbedRetries, EmbedDelay);
    var c := Embed(client, text, backend, draw);
    assert Pow2(1) == 2 && Pow2(2) == 4;
    assert c.sleepsMs == [500, 1000, 2000];
  }

  /**
    `k <= 3` transient failures then an embedding: that embedding is
    returned after `k + 1` calls, sleep `i` lasting `500 * 2^i` ms.
  */
  lemma EmbedSucceedsAfterRetries<F>(client: Client, text: string, backend: nat -> Outcome<seq<F>>,
                                     draw: (Word32, nat) -> F, k: nat)
    requires HasRemote(client) && text != ""
    requires k <= EmbedRetries
    requires forall i :: 0 <= i < k ==> backend(i).Transient?
    requires backend(k).Ok?
    ensures var c := Embed(client, text, backend, draw);
            && c.result == Success(backend(k).value)
            && c.remoteCalls == k + 1
            && |c.sleepsMs| == k
            && forall i :: 0 <= i < k ==> c.sleepsMs[i] == 500 * Pow2(i)
  {
    RetrySucceeds(backend, EmbedRetries, EmbedDelay, k);
  }

  /** A non-transient error raises at once: one attempt, no sleep. */
  lemma EmbedFatalRaisesAtOnce<F>(client: Client, text: string, backend: nat -> Outcome<seq<F>>,
                                  draw: (Word32, nat) -> F)
    requires HasRemote(client) && text != ""
    requires backend(0).Fatal?
    ensures Embed(client, text, backend, draw) == Call(Failure(Unexpected), 1, [])
  {
  }
}

=== FILE: app.dfy ===
/**
  Model of the session logic in main.py: the application state
  `{jd: {text, summary}, results}`, and the guarded transitions of the
  JD-summary, résumé-upload and email endpoints. A handler answers with an
  HTTP status and the state it leaves behind; templates and routing are not
  modelled. The summariser, the résumé scorer and the email writers are
  parameters.
*/
module App {
  import opened Wrappers
  import opened PyStr
  import TextExtraction
  import StableSort
  import opened PyRound

  const MaxFileSizeMb: nat := 10
  const MaxUploadBytes: nat := MaxFileSizeMb * 1024 * 1024
  const AllowedUploads: set<string> := {".pdf", ".docx", ".txt"}

  const Ok: nat := 200
  const BadRequest: nat := 400
  const PayloadTooLarge: nat := 413
  const UnsupportedMediaType: nat := 415
  const Unprocessable: nat := 422
  const ServerError: nat := 500

  datatype Jd = Jd(text: string, summary: string)

  /** One scored résumé; `score` is the stored value that the results are sorted by. */
  datatype Entry<D> = Entry(filename: string, score: real, details: D)

  /** `app.state`; a field is `None` until `_init_state` creates it. */
  datatype AppState<D> = AppState(jd: Option<Jd>, results: Option<seq<Entry<D>>>)

  datatype Response<D> = Response(status: nat, state: AppState<D>)

  /** One uploaded file: its name, the size the client declared (if any), and its bytes. */
  datatype Upload = Upload(filename: string, size: Option<nat>, content: seq<bv8>)

  /** `_init_state`: creates the missing fields and leaves existing ones alone. */
  function InitState<D>(st: AppState<D>): (r: AppState<D>)
    ensures r.jd.Some? && r.results.Some?
    ensures st.jd.Some? ==> r.jd == st.jd
    ensures st.results.Some? ==> r.results == st.results
    ensures st.jd.None? ==> r.jd == Some(Jd("", ""))
    ensures st.results.None? ==> r.results == Some([])
  {
    AppState(if st.jd.Some? then st.jd else Some(Jd("", "")),
             if st.results.Some? then st.results else Some([]))
  }

  /** Initialising twice is initialising once. */
  lemma InitStateIdempotent<D>(st: AppState<D>)
    ensures InitState(InitState(st)) == InitState(st)
  {
  }

  function CurrentJd<D>(st: AppState<D>): Jd
  {
    InitState(st).jd.value
  }

  // ---------------------------------------------------------------------
  // POST /jd/summary

  /**
    `jd_summary`: blank text is refused with 400; otherwise the stripped text
    is summarised, and on success becomes the JD with its summary while the
    old results are dropped; a failing summariser changes nothing.
  */
  function JdSummary<D>(st: AppState<D>, jdText: string,
                        summarize: string -> Result<string, string>): (r: Response<D>)
    ensures r.status in {Ok, BadRequest, ServerError}
    ensures r.status != Ok ==> r.state == InitState(st)
    ensures r.status == BadRequest <==> Strip(jdText) == ""
    ensures r.status == Ok <==> Strip(jdText) != "" && summarize(Strip(jdText)).Success?
    ensures r.status == Ok ==>
              r.state.jd == Some(Jd(Strip(jdText), summarize(Strip(jdText)).value))
              && r.state.results == Some([])
  {
    var s := InitState(st);
    var text := Strip(jdText);
    if jdText == "" || text == "" then Response(BadRequest, s)
    else
      match summarize(text)
      case Failure(_) => Response(ServerError, s)
      case Success(summary) => Response(Ok, s.(jd := Some(Jd(text, summary)), results := Some([])))
  }

  // ---------------------------------------------------------------------
  // POST /resumes/upload

  /**
    Extraction and scoring of a file that passed the upload checks. The
    extractor's extension error gives 415 and any other extraction error
    422; a scorer error gives 500. The stored score is the scorer's value as
    a percentage rounded to two decimals, next to the scorer's details.
  */
  function ExtractAndScore<D>(f: Upload, jdText: string, ex: TextExtraction.Extractors,
                              score: (string, string) -> Result<(real, D), string>): (r: Result<Entry<D>, nat>)
    ensures r.Failure? ==> r.error in {UnsupportedMediaType, Unprocessable, ServerError}
    ensures r == Failure(UnsupportedMediaType) ==>
              Extension(TextExtraction.FileName(Some(f.filename))) !in TextExtraction.AllowedExts
    ensures var x := TextExtraction.ExtractText(TextExtraction.UploadedFile(Some(f.filename), f.content), ex);
            && (x.Failure? && x.error.AllowedExtensionError? ==> r == Failure(UnsupportedMediaType))
            && (x.Failure? && !x.error.AllowedExtensionError? ==> r == Failure(Unprocessable))
            && (x.Success? && score(x.value, jdText).Failure? ==> r == Failure(ServerError))
            && (x.Success? && score(x.value, jdText).Success? ==>
                  && r.Success?
                  && r.value.filename == f.filename
                  && r.value.score == Round2(score(x.value, jdText).value.0 * 100.0)
                  && r.value.details == score(x.value, jdText).value.1)
    ensures r.Success? ==> r.value.filename == f.filename
  {
    FromExtraction(f.filename, TextExtraction.ExtractText(TextExtraction.UploadedFile(Some(f.filename), f.content), ex),
                   jdText, score)
  }

  /** The statuses and the entry of `ExtractAndScore`, given what the extractor did. */
  function FromExtraction<D>(filename: string, x: Result<string, TextExtraction.ExtractError>, jdText: string,
                             score: (string, string) -> Result<(real, D), string>): (r: Result<Entry<D>, nat>)
    ensures x.Failure? ==> r == Failure(if x.error.AllowedExtensionError? then UnsupportedMediaType else Unprocessable)
    ensures x.Success? && score(x.value, jdText).Failure? ==> r == Failure(ServerError)
    ensures x.Success? && score(x.value, jdText).Success? ==>
              r == Success(Entry(filename, Round2(score(x.value, jdText).value.0 * 100.0),
                                 score(x.value, jdText).value.1))
  {
    match x
    case Failure(e) => if e.AllowedExtensionError? then Failure(UnsupportedMediaType) else Failure(Unprocessable)
    case Success(text) =>
      match score(text, jdText)
      case Failure(_) => Failure(ServerError)
      case Success(pair) => Success(Entry(filename, Round2(pair.0 * 100.0), pair.1))
  }

  /**
    One file of the batch: extension check (415), declared-size check (413,
    which a missing or zero size never trips), then extraction (415 or 422
    when it raises) and scoring (500 when it raises).
  */
  function ProcessFile<D>(f: Upload, jdText: string, ex: TextExtraction.Extractors,
                          score: (string, string) -> Result<(real, D), string>): (r: Result<Entry<D>, nat>)
    ensures Extension(f.filename) !in AllowedUploads <==> r == Failure(UnsupportedMediaType)
    ensures (Extension(f.filename) in AllowedUploads && f.size.Some? && f.size.value > MaxUploadBytes)
              <==> r == Failure(PayloadTooLarge)
    ensures r.Failure? ==> r.error in {PayloadTooLarge, UnsupportedMediaType, Unprocessable, ServerError}
    ensures r.Success? ==> r.value.filename == f.filename
    ensures Extension(f.filename) in AllowedUploads && !(f.size.Some? && f.size.value > MaxUploadBytes) ==>
              r == ExtractAndScore(f, jdText, ex, score)
  {
    if Extension(f.filename) !in AllowedUploads then Failure(UnsupportedMediaType)
    else if f.size.Some? && f.size.value > MaxUploadBytes then Failure(PayloadTooLarge)
    else
      AllowedNameReachesParser(f, jdText, ex, score);
      ExtractAndScore(f, jdText, ex, score)
  }

  /**
    A name on the upload allow-list is also on the extractor's list, so the
    extractor's own extension error cannot occur after the upload checks.
  */
  lemma AllowedNameReachesParser<D>(f: Upload, jdText: string, ex: TextExtraction.Extractors,
                                    score: (string, string) -> Result<(real, D), string>)
    requires Extension(f.filename) in AllowedUploads
    ensures ExtractAndScore(f, jdText, ex, score) != Failure(UnsupportedMediaType)
  {
    EmptyNameNoExtension();
    assert TextExtraction.FileName(Some(f.filename)) == f.filename;
    assert AllowedUploads == TextExtraction.AllowedExts;
  }

  /** The empty name has no extension, so a name that passed the allow-list is non-empty. */
  lemma EmptyNameNoExtension()
    ensures Extension("") == ""
  {
    assert Splitext("").0 + Splitext("").1 == "";
  }

  /** `ProcessFile` with the JD text, parsers and scorer of one request fixed. */
  function Step<D>(jdText: string, ex: TextExtraction.Extractors,
                   score: (string, string) -> Result<(real, D), string>): Upload -> Result<Entry<D>, nat>
  {
    f => ProcessFile(f, jdText, ex, score)
  }

  /**
    The loop over the batch: every file in order, stopping at the first that
    fails. On success there is one entry per file, in upload order; on
    failure the status is that of the first failing file.
  */
  function ScoreBatch<D>(files: seq<Upload>, step: Upload -> Result<Entry<D>, nat>): (r: Result<seq<Entry<D>>, nat>)
    ensures r.Success? <==> forall i :: 0 <= i < |files| ==> step(files[i]).Success?
    ensures r.Success? ==>
              (|r.value| == |files| && forall i :: 0 <= i < |files| ==> r.value[i] == step(files[i]).value)
    ensures r.Failure? ==>
              (exists i :: 0 <= i < |files| && step(files[i]) == Failure(r.error)
                 && forall j :: 0 <= j < i ==> step(files[j]).Success?)
  {
    if |files| == 0 then Success([])
    else
      match step(files[0])
      case Failure(code) => Failure(code)
      case Success(entry) =>
        match ScoreBatch(files[1..], step)
        case Failure(code) =>
          assert forall i :: 1 <= i < |files| ==> files[1..][i - 1] == files[i];
          Failure(code)
        case Success(rest) => Success([entry] + rest)
  }

  function ByScore<D>(e: Entry<D>): real
  {
    e.score
  }

  /**
    `upload_resumes`: needs a current JD and at least one file (else 400).
    Any failing file aborts the batch with its status and leaves the results
    as they were; otherwise the new results, one per file, sorted by score
    descending with ties in upload order, replace the old ones.
  */
  function UploadResumes<D>(st: AppState<D>, files: seq<Upload>, ex: TextExtraction.Extractors,
                            score: (string, string) -> Result<(real, D), string>): (r: Response<D>)
    ensures r.status in {Ok, BadRequest, PayloadTooLarge, UnsupportedMediaType, Unprocessable, ServerError}
    ensures r.status != Ok ==> r.state == InitState(st)
    ensures CurrentJd(st).text == "" || files == [] ==> r == Response(BadRequest, InitState(st))
    ensures CurrentJd(st).text != "" && files != [] ==>
              var batch := ScoreBatch(files, Step(CurrentJd(st).text, ex, score));
              && (batch.Success? <==> r.status == Ok)
              && (batch.Failure? ==> r == Response(batch.error, InitState(st)))
    ensures r.status == Ok ==>
              && r.state.jd == InitState(st).jd
              && r.state.results.Some?
              && var res, batch := r.state.results.value, ScoreBatch(files, Step(CurrentJd(st).text, ex, score));
              && batch.Success?
              && |res| == |files|
              && multiset(res) == multiset(batch.value)
              && StableSort.SortedDesc(res, ByScore)
              && forall v :: StableSort.WithKey(res, ByScore, v) == StableSort.WithKey(batch.value, ByScore, v)
  {
    var s := InitState(st);
    if s.jd.value.text == "" then Response(BadRequest, s)
    else if files == [] then Response(BadRequest, s)
    else
      match ScoreBatch(files, Step(s.jd.value.text, ex, score))
      case Failure(code) => Response(code, s)
      case Success(entries) =>
        var sorted := StableSort.SortDesc(entries, ByScore);
        assert |sorted| == |entries| by {
          assert |multiset(sorted)| == |multiset(entries)|;
        }
        Response(Ok, s.(results := Some(sorted)))
  }

  /** A batch in which some file fails leaves the results exactly as they were. */
  lemma FailedBatchKeepsResults<D>(st: AppState<D>, files: seq<Upload>, ex: TextExtraction.Extractors,
                                   score: (string, string) -> Result<(real, D), string>, i: nat)
    requires i < |files| && ProcessFile(files[i], CurrentJd(st).text, ex, score).Failure?
    ensures UploadResumes(st, files, ex, score).state.results == InitState(st).results
  {
  }

  /**
    The old results play no part in an upload: the status does not depend on
    them, and a successful upload replaces them wholesale.
  */
  lemma UploadIgnoresOldResults<D>(st: AppState<D>, previous: seq<Entry<D>>, files: seq<Upload>,
                                   ex: TextExtraction.Extractors,
                                   score: (string, string) -> Result<(real, D), string>)
    ensures var r, r' := UploadResumes(st, files, ex, score),
                         UploadResumes(st.(results := Some(previous)), files, ex, score);
            r.status == r'.status && (r.status == Ok ==> r == r')
  {
  }

  /** The size limit is inclusive: a file of exactly 10 MiB is not refused as too large. */
  lemma SizeLimitInclusive<D>(f: Upload, jdText: string, ex: TextExtraction.Extractors,
                              score: (string, string) -> Result<(real, D), string>)
    requires Extension(f.filename) in AllowedUploads
    requires f.size == Some(10 * 1024 * 1024) || f.size == Some(0) || f.size == None
    ensures ProcessFile(f, jdText, ex, score).Failure? ==>
              ProcessFile(f, jdText, ex, score).error in {Unprocessable, ServerError}
  {
  }

  // ---------------------------------------------------------------------
  // POST /email/generate

  datatype EmailResponse<D, E> = EmailResponse(status: nat, state: AppState<D>, email: Option<E>)

  /**
    `email_generate`: the type must be "interview" or "rejection" and the
    stripped name non-blank (else 400). The chosen email writer runs outside
    any handler, so its failure is a 500. Only an interview email reads the
    JD text; no path changes the JD or the results.
  */
  function EmailGenerate<D, E>(st: AppState<D>, emailType: string, candidateName: string,
                               interview: (string, string) -> Result<E, string>,
                               rejection: string -> Result<E, string>): (r: EmailResponse<D, E>)
    ensures r.state == InitState(st)
    ensures r.status in {Ok, BadRequest, ServerError}
    ensures r.status == BadRequest <==> emailType !in {"interview", "rejection"} || Strip(candidateName) == ""
    ensures r.status != Ok <==> r.email == None
    ensures r.status != BadRequest && emailType == "interview" ==>
              var w := interview(Strip(candidateName), CurrentJd(st).text);
              (r.status == Ok <==> w.Success?) && (w.Success? ==> r.email == Some(w.value))
    ensures r.status != BadRequest && emailType == "rejection" ==>
              var w := rejection(Strip(candidateName));
              (r.status == Ok <==> w.Success?) && (w.Success? ==> r.email == Some(w.value))
  {
    var s := InitState(st);
    if emailType !in {"interview", "rejection"} then EmailResponse(BadRequest, s, None)
    else if Strip(candidateName) == "" then EmailResponse(BadRequest, s, None)
    else
      match if emailType == "interview" then interview(Strip(candidateName), s.jd.value.text)
            else rejection(Strip(candidateName))
      case Success(email) => EmailResponse(Ok, s, Some(email))
      case Failure(_) => EmailResponse(ServerError, s, None)
  }

  /** A rejection email, and whether one can be written, do not depend on the job description. */
  lemma RejectionIgnoresJd<D, E>(st: AppState<D>, st': AppState<D>, candidateName: string,
                                 interview: (string, string) -> Result<E, string>,
                                 rejection: string -> Result<E, string>)
    ensures var r, r' := EmailGenerate(st, "rejection", candidateName, interview, rejection),
                         EmailGenerate(st', "rejection", candidateName, interview, rejection);
            r.status == r'.status && r.email == r'.email
  {
  }
}

=== FILE: bits.dfy ===
/**
  Bitwise operations on unbounded non-negative integers, the way Python's
  `^` and `&` act on `int`, and the facts that tie them to arithmetic
  modulo a power of two.
*/
module Bits {

  function Pow2(k: nat): (r: nat)
    ensures r >= 1
  {
    if k == 0 then 1 else 2 * Pow2(k - 1)
  }

  /** 2^32, the modulus of a 32-bit unsigned word. */
  const Word: nat := 0x1_0000_0000

  type Word32 = x: int | 0 <= x < 0x1_0000_0000

  lemma {:induction false} Pow2Add(a: nat, b: nat)
    ensures Pow2(a + b) == Pow2(a) * Pow2(b)
    decreases a
  {
    if a != 0 {
      Pow2Add(a - 1, b);
      var x, y := Pow2(a - 1), Pow2(b);
      assert Pow2(a) == 2 * x;
      assert Pow2(a + b) == 2 * Pow2(a - 1 + b);
      Twice(x, y);
    }
  }

  lemma Twice(x: nat, y: nat)
    ensures 2 * (x * y) == (2 * x) * y
  {
  }

  lemma Pow2Word()
    ensures Pow2(32) == Word
  {
    assert Pow2(4) == 16;
    Pow2Add(4, 4);
    assert Pow2(8) == 256;
    Pow2Add(8, 8);
    assert Pow2(16) == 65536;
    Pow2Add(16, 16);
  }

  /** Python's `a ^ b` on non-negative integers, one bit at a time. */
  function Xor(a: nat, b: nat): nat
    decreases a + b
  {
    if a == 0 then b
    else if b == 0 then a
    else 2 * Xor(a / 2, b / 2) + BitXor(a % 2, b % 2)
  }

  function BitXor(x: nat, y: nat): nat { if x == y then 0 else 1 }

  /** Python's `a & b` on non-negative integers, one bit at a time. */
  function And(a: nat, b: nat): nat
    decreases a + b
  {
    if a == 0 || b == 0 then 0
    else 2 * And(a / 2, b / 2) + BitAnd(a % 2, b % 2)
  }

  function BitAnd(x: nat, y: nat): nat { if x == 1 && y == 1 then 1 else 0 }

  lemma ModUnique(x: int, n: int, d: int, e: int)
    requires n > 0 && 0 <= e < n && x == n * d + e
    ensures x % n == e && x / n == d
  {
    var q, r := x / n, x % n;
    assert n * (d - q) == r - e;
    if d > q {
      MulAtLeast(n, d - q);
    } else if d < q {
      MulAtLeast(n, q - d);
    }
  }

  lemma MulAtLeast(n: int, k: int)
    requires n > 0 && k >= 1
    ensures n * k >= n
  {
  }

  /** Splitting off the lowest bit commutes with reduction modulo 2^(k+1). */
  lemma ModDouble(q: nat, r: nat, m: nat)
    requires m > 0 && r < 2
    ensures (2 * q + r) % (2 * m) == 2 * (q % m) + r
    ensures (2 * q + r) / 2 == q && (2 * q + r) % 2 == r
  {
    var d, e := q / m, q % m;
    assert q == m * d + e;
    ModUnique(2 * q + r, 2 * m, d, 2 * e + r);
  }

  lemma XorZero(b: nat)
    ensures Xor(0, b) == 2 * Xor(0, b / 2) + BitXor(0, b % 2)
  {
  }

  lemma XorUnfold(a: nat, b: nat)
    ensures Xor(a, b) == 2 * Xor(a / 2, b / 2) + BitXor(a % 2, b % 2)
  {
    if a == 0 {
      XorZero(b);
    } else if b == 0 {
      XorZero(a);
      assert Xor(a / 2, b / 2) == a / 2;
    }
  }

  lemma AndUnfold(a: nat, b: nat)
    ensures And(a, b) == 2 * And(a / 2, b / 2) + BitAnd(a % 2, b % 2)
  {
  }

  /** The low k bits of `a ^ b` depend only on the low k bits of `a` and `b`. */
  lemma {:induction false} XorMod(a: nat, b: nat, k: nat)
    ensures Xor(a, b) % Pow2(k) == Xor(a % Pow2(k), b % Pow2(k))
    decreases k
  {
    if k != 0 {
      var m := Pow2(k - 1);
      var a', b' := a % (2 * m), b % (2 * m);
      LowBits(a, m);
      LowBits(b, m);
      XorMod(a / 2, b / 2, k - 1);
      var x, r := Xor(a / 2, b / 2), BitXor(a % 2, b % 2);
      assert Xor(a', b') == 2 * (x % m) + r by {
        XorUnfold(a', b');
      }
      assert Xor(a, b) % (2 * m) == 2 * (x % m) + r by {
        XorUnfold(a, b);
        ModDouble(x, r, m);
      }
    }
  }

  /** Reduction modulo 2m, seen through the lowest bit and the rest. */
  lemma LowBits(a: nat, m: nat)
    requires m > 0
    ensures (a % (2 * m)) / 2 == (a / 2) % m && (a % (2 * m)) % 2 == a % 2
  {
    assert a == 2 * (a / 2) + a % 2;
    ModDouble(a / 2, a % 2, m);
    ModDouble((a / 2) % m, a % 2, m);
  }

  /** Masking with 2^k - 1 keeps exactly the residue modulo 2^k. */
  lemma {:induction false} AndLowMask(n: nat, k: nat)
    ensures And(n, Pow2(k) - 1) == n % Pow2(k)
    decreases k
  {
    if k != 0 {
      AndLowMask(n / 2, k - 1);
      MaskStep(n, Pow2(k - 1), Pow2(k));
    }
  }

  /** Masking with 2m - 1 keeps the residue modulo 2m when masking with m - 1 keeps it modulo m. */
  lemma MaskStep(n: nat, m: nat, p: nat)
    requires m > 0 && p == 2 * m
    requires And(n / 2, m - 1) == (n / 2) % m
    ensures And(n, p - 1) == n % p
  {
    ModDouble(m - 1, 1, 1);
    AndUnfold(n, 2 * (m - 1) + 1);
    ModStep(n, m);
  }

  lemma ModStep(n: nat, m: nat)
    requires m > 0
    ensures n % (2 * m) == 2 * ((n / 2) % m) + n % 2
  {
    assert n == 2 * (n / 2) + n % 2;
    ModDouble(n / 2, n % 2, m);
  }

  lemma MulMod(a: nat, c: nat, n: nat)
    requires n > 0
    ensures (a * c) % n == ((a % n) * c) % n
  {
    var d, e := a / n, a % n;
    var q, s := (e * c) / n, (e * c) % n;
    assert a * c == n * (d * c) + e * c;
    ModUnique(a * c, n, d * c + q, s);
  }

  lemma XorBound(a: nat, b: nat, k: nat)
    requires a < Pow2(k) && b < Pow2(k)
    ensures Xor(a, b) < Pow2(k)
  {
    XorMod(a, b, k);
    ModUnique(a, Pow2(k), 0, a);
    ModUnique(b, Pow2(k), 0, b);
  }
}

=== FILE: pyround.dfy ===
/**
  Python's `round(x, 2)`, taken on exact reals: the nearest multiple of
  0.01, an exact half going to the even multiple.
*/
module PyRound {

  /** The integer nearest to `v`; at an exact half, the even one. */
  function RoundHalfEven(v: real): (n: int)
    ensures v - 0.5 <= n as real <= v + 0.5
    ensures (n as real - v == 0.5 || v - n as real == 0.5) ==> n % 2 == 0
  {
    if v - v.Floor as real < 0.5 then v.Floor
    else if v - v.Floor as real > 0.5 then v.Floor + 1
    else if v.Floor % 2 == 0 then v.Floor
    else v.Floor + 1
  }

  /** Nearest with ties to even leaves no choice: those two facts pin the integer down. */
  lemma RoundHalfEvenUnique(v: real, n: int)
    requires v - 0.5 <= n as real <= v + 0.5
    requires (n as real - v == 0.5 || v - n as real == 0.5) ==> n % 2 == 0
    ensures n == RoundHalfEven(v)
  {
  }

  /** Rounding never puts a smaller value above a larger one; it can only make them equal. */
  lemma RoundHalfEvenMonotone(v: real, w: real)
    requires v <= w
    ensures RoundHalfEven(v) <= RoundHalfEven(w)
  {
  }

  /**
    `round(x, 2)`: a whole number of hundredths, at most half a hundredth
    away from `x`, and an even number of hundredths when `x` lies exactly
    halfway.
  */
  function Round2(x: real): (r: real)
    ensures -0.005 <= r - x <= 0.005
    ensures (r * 100.0).Floor as real == r * 100.0
    ensures (r - x == 0.005 || x - r == 0.005) ==> (r * 100.0).Floor % 2 == 0
  {
    RoundHalfEven(x * 100.0) as real / 100.0
  }

  lemma Round2Monotone(x: real, y: real)
    requires x <= y
    ensures Round2(x) <= Round2(y)
  {
    RoundHalfEvenMonotone(x * 100.0, y * 100.0);
  }

  /** A value that is already a whole number of hundredths is left as it is. */
  lemma Round2Idempotent(x: real)
    ensures Round2(Round2(x)) == Round2(x)
  {
    var r := Round2(x);
    var n := (r * 100.0).Floor;
    assert r * 100.0 == n as real;
    RoundHalfEvenUnique(r * 100.0, n);
  }

  /**
    Scores that differ only beyond the second decimal of a percentage become
    equal keys, e.g. 50.001 and 50.003 both become 50.0.
  */
  lemma Round2Ties()
    ensures Round2(50.001) == 50.0 && Round2(50.003) == 50.0
  {
    RoundHalfEvenUnique(5000.1, 5000);
    RoundHalfEvenUnique(5000.3, 5000);
  }
}

=== FILE: pystr.dfy ===
/**
  The pieces of Python's `str` behaviour the service relies on: `isspace`
  and `strip`, ASCII `lower`, `sep.join`, `posixpath.splitext`, and the
  decimal rendering of a length inside an f-string.
*/
module PyStr {
  import opened Wrappers

  /** `c.isspace()`: the characters Python treats as whitespace. */
  predicate IsSpace(c: char)
  {
    || ('\t' <= c <= '\r')
    || ('\U{1C}' <= c <= ' ')
    || c == '\U{85}' || c == '\U{A0}' || c == '\U{1680}'
    || ('\U{2000}' <= c <= '\U{200A}')
    || c == '\U{2028}' || c == '\U{2029}' || c == '\U{202F}' || c == '\U{205F}'
    || c == '\U{3000}'
  }

  /**
    The characters for which Python's `str.isspace` holds, listed one by
    one: those of Unicode bidirectional class WS, B or S, or of category Zs.
  */
  const PyWhitespace: set<char> := {
    '\t', '\n', '\U{B}', '\U{C}', '\r', '\U{1C}', '\U{1D}', '\U{1E}', '\U{1F}', ' ',
    '\U{85}', '\U{A0}', '\U{1680}',
    '\U{2000}', '\U{2001}', '\U{2002}', '\U{2003}', '\U{2004}', '\U{2005}',
    '\U{2006}', '\U{2007}', '\U{2008}', '\U{2009}', '\U{200A}',
    '\U{2028}', '\U{2029}', '\U{202F}', '\U{205F}', '\U{3000}'
  }

  /** The ranges of `IsSpace` cover exactly the 29 whitespace characters. */
  lemma IsSpaceTable(c: char)
    ensures IsSpace(c) <==> c in PyWhitespace
  {
  }

  ghost predicate AllSpace(s: string)
  {
    forall i :: 0 <= i < |s| ==> IsSpace(s[i])
  }

  /**
    `r` is `s` with a whitespace-only prefix cut off, and does not itself
    start with whitespace.
  */
  ghost predicate LeadCut(s: string, r: string)
  {
    && |r| <= |s| && r == s[|s| - |r|..]
    && (forall k :: 0 <= k < |s| - |r| ==> IsSpace(s[k]))
    && (r == [] || !IsSpace(r[0]))
  }

  /**
    `r` is `s` with a whitespace-only suffix cut off, and does not itself
    end with whitespace.
  */
  ghost predicate TrailCut(s: string, r: string)
  {
    && |r| <= |s| && r == s[..|r|]
    && (forall k :: |r| <= k < |s| ==> IsSpace(s[k]))
    && (r == [] || !IsSpace(r[|r| - 1]))
  }

  /** `s.lstrip()`: drops the leading whitespace and nothing else. */
  function LStrip(s: string): (r: string)
    ensures LeadCut(s, r)
  {
    if s != [] && IsSpace(s[0]) then LStrip(s[1..]) else s
  }

  /** `s.rstrip()`: drops the trailing whitespace and nothing else. */
  function RStrip(s: string): (r: string)
    ensures TrailCut(s, r)
  {
    if s != [] && IsSpace(s[|s| - 1]) then RStrip(s[..|s| - 1]) else s
  }

  /**
    `r` is what stripping `s` leaves when the leading whitespace ends at `i`:
    `r` sits in `s` at offset `i`, every character of `s` before or after it
    is whitespace, and `r` neither starts nor ends with whitespace.
  */
  ghost predicate StrippedFrom(s: string, i: int, r: string)
  {
    && 0 <= i && i + |r| <= |s|
    && (forall k :: 0 <= k < |r| ==> r[k] == s[i + k])
    && (forall k :: 0 <= k < i ==> IsSpace(s[k]))
    && (forall k :: i + |r| <= k < |s| ==> IsSpace(s[k]))
    && (r == [] || (!IsSpace(r[0]) && !IsSpace(r[|r| - 1])))
  }

  /** `s.strip()`: the leading whitespace is cut first, then the trailing whitespace. */
  function Strip(s: string): (r: string)
    ensures StrippedFrom(s, |s| - |LStrip(s)|, r)
  {
    StripShape(s, LStrip(s), RStrip(LStrip(s)));
    RStrip(LStrip(s))
  }

  /**
    Cutting leading whitespace to get `l`, then trailing whitespace of `l`
    to get `r`, strips `s` with the leading whitespace ending at `|s| - |l|`.
  */
  lemma StripShape(s: string, l: string, r: string)
    requires LeadCut(s, l) && TrailCut(l, r)
    ensures StrippedFrom(s, |s| - |l|, r)
  {
    var i := |s| - |l|;
    assert forall k :: 0 <= k < |l| ==> l[k] == s[i + k];
    assert r != [] ==> r[0] == l[0];
  }

  lemma StripEmptyIff(s: string)
    ensures Strip(s) == [] <==> AllSpace(s)
  {
    var r, i := Strip(s), |s| - |LStrip(s)|;
    if r == [] {
      forall k | 0 <= k < |s|
        ensures IsSpace(s[k])
      {
        if k < i {
          assert IsSpace(s[k]);
        }
      }
    } else {
      assert r[0] == s[i];
    }
  }

  /** `strip` is idempotent: a stripped string has no edge whitespace left. */
  lemma StripIdempotent(s: string)
    ensures Strip(Strip(s)) == Strip(s)
  {
    var r := Strip(s);
    var r' := Strip(r);
    if r != [] {
      assert |r| - |LStrip(r)| == 0;
      assert |r'| == |r|;
    }
  }

  /** `c.lower()` restricted to ASCII letters. */
  function LowerChar(c: char): char
  {
    if 'A' <= c <= 'Z' then (c as int + 32) as char else c
  }

  function Lower(s: string): string
  {
    seq(|s|, i requires 0 <= i < |s| => LowerChar(s[i]))
  }

  /** `sep.join(parts)`. */
  function Join(sep: string, parts: seq<string>): string
  {
    if |parts| == 0 then ""
    else if |parts| == 1 then parts[0]
    else parts[0] + sep + Join(sep, parts[1..])
  }

  function TotalLength(parts: seq<string>): nat
  {
    if |parts| == 0 then 0 else |parts[0]| + TotalLength(parts[1..])
  }

  /** A join is as long as its parts plus one separator between each adjacent pair. */
  lemma {:induction false} JoinLength(sep: string, parts: seq<string>)
    requires |parts| > 0
    ensures |Join(sep, parts)| == TotalLength(parts) + |sep| * (|parts| - 1)
    decreases |parts|
  {
    if |parts| > 1 {
      JoinLength(sep, parts[1..]);
    }
  }

  /** Joining with a non-empty separator is empty only for no parts or one empty part. */
  lemma JoinEmptyIff(sep: string, parts: seq<string>)
    requires sep != ""
    ensures Join(sep, parts) == "" <==> |parts| == 0 || (|parts| == 1 && parts[0] == "")
  {
    if |parts| > 1 {
      assert |Join(sep, parts)| >= |sep|;
    }
  }

  /** `s.split(c)` for a single-character separator. */
  function SplitOn(s: string, c: char): (r: seq<string>)
    ensures |r| >= 1
  {
    if |s| == 0 then [""]
    else
      var rest := SplitOn(s[1..], c);
      if s[0] == c then [""] + rest else [[s[0]] + rest[0]] + rest[1..]
  }

  lemma {:induction false} SplitPrefix(p: string, t: string, c: char)
    requires c !in p
    ensures SplitOn(p + t, c) == [p + SplitOn(t, c)[0]] + SplitOn(t, c)[1..]
    decreases |p|
  {
    if |p| > 0 {
      assert (p + t)[1..] == p[1..] + t;
      assert (p + t)[0] == p[0] != c;
      SplitPrefix(p[1..], t, c);
      assert [p[0]] + (p[1..] + SplitOn(t, c)[0]) == p + SplitOn(t, c)[0];
    } else {
      assert p + t == t;
      assert p + SplitOn(t, c)[0] == SplitOn(t, c)[0];
      assert [SplitOn(t, c)[0]] + SplitOn(t, c)[1..] == SplitOn(t, c);
    }
  }

  /**
    Joining a non-empty list of parts with a one-character separator that
    no part contains loses nothing: splitting on it gives back the parts, in
    order. The empty list is excluded: it joins to "", which splits to `[""]`.
  */
  lemma {:induction false} SplitJoin(parts: seq<string>, c: char)
    requires |parts| > 0
    requires forall i :: 0 <= i < |parts| ==> c !in parts[i]
    ensures SplitOn(Join([c], parts), c) == parts
    decreases |parts|
  {
    if |parts| == 1 {
      SplitPrefix(parts[0], "", c);
      assert SplitOn("", c) == [""];
      assert parts[0] + "" == parts[0];
    } else {
      var tail := Join([c], parts[1..]);
      SplitJoin(parts[1..], c);
      assert Join([c], parts) == parts[0] + ([c] + tail);
      SplitPrefix(parts[0], [c] + tail, c);
      assert ([c] + tail)[1..] == tail;
      assert SplitOn([c] + tail, c) == [""] + parts[1..];
      assert parts[0] + "" == parts[0];
      assert parts == [parts[0]] + parts[1..];
    }
  }

  /** Index of the last occurrence of `c` in `s`, or -1 (`s.rfind(c)`). */
  function RFind(s: string, c: char): (r: int)
    ensures -1 <= r < |s|
    ensures r >= 0 ==> s[r] == c
    ensures forall j :: r < j < |s| ==> s[j] != c
  {
    if |s| == 0 then -1
    else if s[|s| - 1] == c then |s| - 1
    else RFind(s[..|s| - 1], c)
  }

  /**
    The dot at `d` starts an extension of path `p` in the sense of
    `posixpath.splitext`: it is the last dot, no `/` follows it, and some
    character of the final path component before it is not a dot.
  */
  ghost predicate ExtensionDot(p: string, d: int)
  {
    && 0 <= d < |p| && p[d] == '.'
    && (forall j :: d < j < |p| ==> p[j] != '.' && p[j] != '/')
    && (exists k :: 0 <= k < d && p[k] != '.' && p[k] != '/'
                    && forall j :: k < j < d ==> p[j] != '/')
  }

  predicate HasNonDot(p: string, lo: int, hi: int)
    requires 0 <= lo && hi <= |p|
  {
    exists k :: lo <= k < hi && p[k] != '.'
  }

  /**
    `posixpath.splitext(p)` as `(root, ext)`: `root + ext == p`, and `ext`
    is the tail from the extension dot when there is one, else empty.
    Leading dots of the last component never start an extension, so
    `".pdf"` and `"..pdf"` have none.
  */
  function Splitext(p: string): (r: (string, string))
    ensures r.0 + r.1 == p
    ensures r.1 != [] <==> exists d :: ExtensionDot(p, d)
    ensures forall d :: ExtensionDot(p, d) ==> r.1 == p[d..]
  {
    var sep := RFind(p, '/');
    var dot := RFind(p, '.');
    ExtensionDotIsLastDot(p);
    if dot > sep && HasNonDot(p, sep + 1, dot) then (p[..dot], p[dot..]) else (p, "")
  }

  /** The extension dot, when there is one, is the one `Splitext` finds. */
  lemma ExtensionDotIsLastDot(p: string)
    ensures var sep, dot := RFind(p, '/'), RFind(p, '.');
            && (forall d :: ExtensionDot(p, d) ==> d == dot)
            && ((exists d :: ExtensionDot(p, d)) <==> dot > sep && HasNonDot(p, sep + 1, dot))
  {
    var sep, dot := RFind(p, '/'), RFind(p, '.');
    if dot > sep && HasNonDot(p, sep + 1, dot) {
      var k :| sep + 1 <= k < dot && p[k] != '.';
      assert ExtensionDot(p, dot);
    }
  }

  /** Extension of a file name, lower-cased, as the service compares it. */
  function Extension(name: string): string
  {
    Lower(Splitext(name).1)
  }

  predicate IsDigit(c: char)
  {
    '0' <= c <= '9'
  }

  function DigitChar(d: nat): (c: char)
    requires d < 10
    ensures IsDigit(c) && c as int - '0' as int == d
  {
    ('0' as int + d) as char
  }

  /** `str(n)` for a non-negative integer. */
  function NatToDecimal(n: nat): (r: string)
    ensures |r| >= 1
    ensures forall i :: 0 <= i < |r| ==> IsDigit(r[i])
    ensures r[0] == '0' ==> n == 0
  {
    if n < 10 then [DigitChar(n)] else NatToDecimal(n / 10) + [DigitChar(n % 10)]
  }

  /** Value of a string of decimal digits, most significant first. */
  function DecimalValue(s: string): nat
    requires forall i :: 0 <= i < |s| ==> IsDigit(s[i])
  {
    if |s| == 0 then 0
    else 10 * DecimalValue(s[..|s| - 1]) + DigitValue(s[|s| - 1])
  }

  function DigitValue(c: char): nat
    requires IsDigit(c)
  {
    c as int - '0' as int
  }

  /** Reading back a rendered number gives the number. */
  lemma {:induction false} DecimalRoundTrip(n: nat)
    ensures DecimalValue(NatToDecimal(n)) == n
    decreases n
  {
    if n >= 10 {
      var s := NatToDecimal(n);
      DecimalRoundTrip(n / 10);
      assert s[..|s| - 1] == NatToDecimal(n / 10);
    }
  }

  /** Number of leading decimal digits of `s`. */
  function DigitRun(s: string): (n: nat)
    ensures n <= |s|
  {
    if |s| > 0 && IsDigit(s[0]) then 1 + DigitRun(s[1..]) else 0
  }

  lemma {:induction false} DigitRunOf(ds: string, t: string)
    requires forall i :: 0 <= i < |ds| ==> IsDigit(ds[i])
    requires t == [] || !IsDigit(t[0])
    ensures DigitRun(ds + t) == |ds|
    decreases |ds|
  {
    if |ds| > 0 {
      assert (ds + t)[1..] == ds[1..] + t;
      DigitRunOf(ds[1..], t);
    } else {
      assert ds + t == t;
    }
  }
}

=== FILE: stable_sort.dfy ===
/**
  Python's `list.sort(key=..., reverse=True)` on a sequence: descending by
  key, and stable, so elements with equal keys keep their input order.
*/
module StableSort {

  ghost predicate SortedDesc<T>(s: seq<T>, key: T -> real)
  {
    forall i, j :: 0 <= i < j < |s| ==> key(s[i]) >= key(s[j])
  }

  /** The elements of `s` whose key is `v`, in their order in `s`. */
  function WithKey<T>(s: seq<T>, key: T -> real, v: real): seq<T>
  {
    if |s| == 0 then []
    else (if key(s[0]) == v then [s[0]] else []) + WithKey(s[1..], key, v)
  }

  lemma WithKeyCons<T>(x: T, s: seq<T>, key: T -> real, v: real)
    ensures WithKey([x] + s, key, v) == (if key(x) == v then [x] else []) + WithKey(s, key, v)
  {
    assert ([x] + s)[1..] == s;
  }

  /** Puts `x` before the first element whose key is not greater than its own. */
  function Insert<T>(x: T, s: seq<T>, key: T -> real): (r: seq<T>)
    ensures multiset(r) == multiset(s) + multiset{x}
  {
    if |s| == 0 then [x]
    else if key(s[0]) > key(x) then
      assert s == [s[0]] + s[1..];
      [s[0]] + Insert(x, s[1..], key)
    else
      [x] + s
  }

  lemma {:induction false} InsertSorted<T>(x: T, s: seq<T>, key: T -> real)
    requires SortedDesc(s, key)
    ensures SortedDesc(Insert(x, s, key), key)
    ensures |s| > 0 ==> Insert(x, s, key)[0] == (if key(s[0]) > key(x) then s[0] else x)
    decreases |s|
  {
    if |s| > 0 && key(s[0]) > key(x) {
      InsertSorted(x, s[1..], key);
      var rest := Insert(x, s[1..], key);
      assert |rest| > 0;
      assert key(rest[0]) <= key(s[0]) by {
        if |s| > 1 {
          assert rest[0] == s[1] || rest[0] == x;
        }
      }
    }
  }

  /** Inserting `x` in front of elements it is not below keeps every key group in order. */
  lemma {:induction false} InsertGroups<T>(x: T, s: seq<T>, key: T -> real, v: real)
    ensures WithKey(Insert(x, s, key), key, v) == WithKey([x] + s, key, v)
    decreases |s|
  {
    if |s| > 0 && key(s[0]) > key(x) {
      var hs := if key(s[0]) == v then [s[0]] else [];
      var hx := if key(x) == v then [x] else [];
      var tail := WithKey(s[1..], key, v);
      assert WithKey(Insert(x, s, key), key, v) == hs + (hx + tail) by {
        var rest := Insert(x, s[1..], key);
        assert Insert(x, s, key) == [s[0]] + rest;
        InsertGroups(x, s[1..], key, v);
        WithKeyCons(s[0], rest, key, v);
        WithKeyCons(x, s[1..], key, v);
      }
      assert WithKey([x] + s, key, v) == hx + (hs + tail) by {
        assert s == [s[0]] + s[1..];
        WithKeyCons(s[0], s[1..], key, v);
        WithKeyCons(x, s, key, v);
      }
      SwapHeads(hs, hx, tail);
    }
  }

  lemma SwapHeads<T>(a: seq<T>, b: seq<T>, tail: seq<T>)
    requires a == [] || b == []
    ensures a + (b + tail) == b + (a + tail)
  {
    if a == [] {
      assert a + (b + tail) == b + tail;
      assert a + tail == tail;
    } else {
      assert b + tail == tail;
      assert b + (a + tail) == a + tail;
    }
  }

  /** Insertion sort from the back, which keeps equal keys in input order. */
  function SortDesc<T>(s: seq<T>, key: T -> real): (r: seq<T>)
    ensures multiset(r) == multiset(s)
    ensures SortedDesc(r, key)
    ensures forall v :: WithKey(r, key, v) == WithKey(s, key, v)
  {
    if |s| == 0 then []
    else
      var rest := SortDesc(s[1..], key);
      InsertSorted(s[0], rest, key);
      assert s == [s[0]] + s[1..];
      assert forall v :: WithKey(Insert(s[0], rest, key), key, v) == WithKey(s, key, v) by {
        forall v
          ensures WithKey(Insert(s[0], rest, key), key, v) == WithKey(s, key, v)
        {
          InsertGroups(s[0], rest, key, v);
          WithKeyCons(s[0], rest, key, v);
          WithKeyCons(s[0], s[1..], key, v);
        }
      }
      Insert(s[0], rest, key)
  }

  /**
    Stability pins the order down completely: a descending sequence with the
    same elements per key as the input is exactly the sort of the input.
  */
  lemma SortDescUnique<T>(s: seq<T>, t: seq<T>, key: T -> real)
    requires SortedDesc(t, key)
    requires forall v :: WithKey(t, key, v) == WithKey(s, key, v)
    ensures t == SortDesc(s, key)
  {
    SortedSameGroupsEqual(t, SortDesc(s, key), key);
  }

  lemma {:induction false} SortedSameGroupsEqual<T>(t: seq<T>, r: seq<T>, key: T -> real)
    requires SortedDesc(t, key) && SortedDesc(r, key)
    requires forall v :: WithKey(t, key, v) == WithKey(r, key, v)
    ensures t == r
    decreases |t| + |r|
  {
    if |t| == 0 {
      if |r| > 0 {
        GroupOfHead(r, key);
      }
    } else if |r| == 0 {
      GroupOfHead(t, key);
    } else {
      var a, b := key(t[0]), key(r[0]);
      if a < b {
        NotInGroup(t, key, b);
      } else if b < a {
        GroupOfHead(t, key);
        NotInGroup(r, key, a);
      } else {
        assert WithKey(t, key, a)[0] == t[0];
        assert WithKey(r, key, a)[0] == r[0];
        forall v
          ensures WithKey(t[1..], key, v) == WithKey(r[1..], key, v)
        {
          var head := if a == v then [t[0]] else [];
          assert WithKey(t, key, v) == head + WithKey(t[1..], key, v);
          assert WithKey(r, key, v) == head + WithKey(r[1..], key, v);
          assert WithKey(t[1..], key, v) == WithKey(t, key, v)[|head|..];
        }
        SortedSameGroupsEqual(t[1..], r[1..], key);
        assert t == [t[0]] + t[1..] && r == [r[0]] + r[1..];
      }
    }
  }

  lemma GroupOfHead<T>(s: seq<T>, key: T -> real)
    requires |s| > 0
    ensures WithKey(s, key, key(s[0])) != []
  {
  }

  /** In a descending sequence no element has a key above the first one. */
  lemma {:induction false} NotInGroup<T>(s: seq<T>, key: T -> real, v: real)
    requires SortedDesc(s, key)
    requires |s| > 0 && v > key(s[0])
    ensures WithKey(s, key, v) == []
    decreases |s|
  {
    if |s| > 1 {
      NotInGroup(s[1..], key, v);
    }
  }
}

=== FILE: text_extraction.dfy ===
/**
  Model of `extract_text_from_uploaded_file` in utils/text_extraction.py:
  default name, `splitext` extension check against the allow-list, the
  temporary-file suffix, and per-format dispatch with the PDF fallback
  chain. The parsers are parameters applied to the uploaded bytes.
*/
module TextExtraction {
  import opened Wrappers
  import opened PyStr

  const AllowedExts: set<string> := {".pdf", ".docx", ".txt"}

  /** What pdfminer's `extract_text` did: raised, or returned text or `None`. */
  datatype MinerRun = MinerRaised | MinerReturned(text: Option<string>)

  /** What the PyPDF2 path did: raised anywhere, or gave each page's text or `None`. */
  datatype ReaderRun = ReaderRaised | ReaderPages(pages: seq<Option<string>>)

  /** What python-docx did: raised, or gave the paragraph texts in document order. */
  datatype DocxRun = DocxRaised | DocxParagraphs(paragraphs: seq<string>)

  /**
    The parsers. A PDF parser is `None` when its import failed; the UTF-8
    decoder drops undecodable bytes and so always yields a string.
  */
  datatype Extractors = Extractors(
    pdfMiner: Option<seq<bv8> -> MinerRun>,
    pyPdf: Option<seq<bv8> -> ReaderRun>,
    docx: seq<bv8> -> DocxRun,
    decodeUtf8: seq<bv8> -> string)

  datatype UploadedFile = UploadedFile(filename: Option<string>, content: seq<bv8>)

  /** `AllowedExtensionError`, and the two `RuntimeError`s the extractors raise. */
  datatype ExtractError = AllowedExtensionError(ext: string) | NoPdfText | DocxUnreadable

  /** `file.filename or "uploaded"`: the name given, unless it is missing or empty. */
  function FileName(filename: Option<string>): (r: string)
    ensures r != ""
    ensures r == "uploaded" || filename == Some(r)
    ensures filename.Some? && filename.value != "" ==> r == filename.value
  {
    if filename.Some? && filename.value != "" then filename.value else "uploaded"
  }

  /**
    Suffix of the temporary file: the extension itself for PDF and DOCX,
    ".txt" for anything else; on every extension that passes the allow-list
    this is the extension. The temporary file itself is not modelled (the
    parsers get the bytes directly), so this stands alone as the model of
    the suffix choice.
  */
  function TempSuffix(ext: string): (r: string)
    ensures r in AllowedExts
    ensures ext in AllowedExts ==> r == ext
  {
    if ext in {".pdf", ".docx"} then ext else ".txt"
  }

  /** Text of the first PDF step: "" when pdfminer is missing, raised or returned `None`. */
  function MinerText(content: seq<bv8>, ex: Extractors): string
  {
    if ex.pdfMiner.None? then ""
    else
      match ex.pdfMiner.value(content)
      case MinerRaised => ""
      case MinerReturned(t) => t.GetOr("")
  }

  /** Page texts joined by newlines, a `None` page counting as "". */
  function JoinPages(pages: seq<Option<string>>): string
  {
    Join("\n", PageTexts(pages))
  }

  function PageTexts(pages: seq<Option<string>>): seq<string>
  {
    if |pages| == 0 then [] else [pages[0].GetOr("")] + PageTexts(pages[1..])
  }

  /**
    The PDF chain: the second step runs only when the first left the text
    empty, its failure leaves the text as it was, and an empty text after
    both steps raises. The check is on the unstripped text.
  */
  function PdfText(content: seq<bv8>, ex: Extractors): (r: Result<string, ExtractError>)
    ensures r.Success? ==> r.value != ""
    ensures r.Failure? ==> r.error == NoPdfText
    ensures MinerText(content, ex) != "" ==> r == Success(MinerText(content, ex))
  {
    var text := MinerText(content, ex);
    var text :=
      if text == "" && ex.pyPdf.Some? then
        match ex.pyPdf.value(content)
        case ReaderRaised => text
        case ReaderPages(pages) => JoinPages(pages)
      else text;
    if text == "" then Failure(NoPdfText) else Success(text)
  }

  /** Unstripped text of a file with an allowed extension. */
  function RawText(ext: string, content: seq<bv8>, ex: Extractors): Result<string, ExtractError>
  {
    if ext == ".pdf" then PdfText(content, ex)
    else if ext == ".docx" then
      match ex.docx(content)
      case DocxRaised => Failure(DocxUnreadable)
      case DocxParagraphs(ps) => Success(Join("\n", ps))
    else Success(ex.decodeUtf8(content))
  }

  /**
    `extract_text_from_uploaded_file`. An extension outside the allow-list
    is rejected whatever the file holds; every text returned is stripped at
    both edges; each format raises only its own error.
  */
  function ExtractText(file: UploadedFile, ex: Extractors): (r: Result<string, ExtractError>)
    ensures var ext := Extension(FileName(file.filename));
            && (ext !in AllowedExts <==> r == Failure(AllowedExtensionError(ext)))
            && (r.Failure? && r.error == NoPdfText ==> ext == ".pdf")
            && (r.Failure? && r.error == DocxUnreadable ==> ext == ".docx")
            && (ext == ".txt" ==> r == Success(Strip(ex.decodeUtf8(file.content))))
    ensures r.Success? ==> Strip(r.value) == r.value
  {
    var ext := Extension(FileName(file.filename));
    if ext !in AllowedExts then Failure(AllowedExtensionError(ext))
    else
      match RawText(ext, file.content, ex)
      case Failure(e) => Failure(e)
      case Success(t) =>
        StripIdempotent(t);
        Success(Strip(t))
  }

  /** Rejection happens before the content is read: neither bytes nor parsers matter. */
  lemma RejectionIgnoresContent(f: UploadedFile, g: UploadedFile, ex: Extractors, ex': Extractors)
    requires f.filename == g.filename
    requires Extension(FileName(f.filename)) !in AllowedExts
    ensures ExtractText(f, ex) == ExtractText(g, ex')
  {
  }

  /** A missing or empty name becomes "uploaded", which has no extension and is rejected. */
  lemma MissingNameRejected(f: UploadedFile, ex: Extractors)
    requires f.filename == None || f.filename == Some("")
    ensures ExtractText(f, ex) == Failure(AllowedExtensionError(""))
  {
    var name := FileName(f.filename);
    assert name == "uploaded";
    assert Extension(name) == "" by {
      assert forall i :: 0 <= i < |name| ==> name[i] != '.';
      NoDotNoExtension(name);
      assert Lower("") == "";
    }
    assert Extension(name) !in AllowedExts;
  }

  /** Leading dots never start an extension, and a trailing extension is lower-cased. */
  lemma ExtensionExamples()
    ensures Extension(".pdf") == ""
    ensures Extension("..pdf") == ""
    ensures Extension("dir.v2/resume") == ""
    ensures Extension("Resume.PDF") == ".pdf"
  {
    LeadingDotsExamples();
    DotInDirectoryExample();
    UpperCaseExample();
  }

  lemma LeadingDotsExamples()
    ensures Extension(".pdf") == ""
    ensures Extension("..pdf") == ""
  {
    assert Extension(".pdf") == "" by {
      NoExtensionDot(".pdf", 0);
    }
    assert Extension("..pdf") == "" by {
      NoExtensionDot("..pdf", 1);
    }
  }

  lemma DotInDirectoryExample()
    ensures Extension("dir.v2/resume") == ""
  {
    assert "dir.v2/resume"[6] == '/';
    NoExtensionDot("dir.v2/resume", 3);
  }

  lemma UpperCaseExample()
    ensures Extension("Resume.PDF") == ".pdf"
  {
    var p := "Resume.PDF";
    assert ExtensionDot(p, 6) by {
      assert p[0] != '.' && p[0] != '/';
    }
    assert p[6..] == ".PDF";
    assert Lower(".PDF") == ".pdf";
  }

  /** A name without a dot has no extension. */
  lemma NoDotNoExtension(p: string)
    requires '.' !in p
    ensures Splitext(p).1 == ""
  {
  }

  /**
    A name whose only candidate dot is `d` has no extension when the final
    path component holds nothing but dots before `d`, or `d` precedes a `/`.
  */
  lemma NoExtensionDot(p: string, d: nat)
    requires d < |p| && p[d] == '.'
    requires forall j :: d < j < |p| ==> p[j] != '.'
    requires (forall k :: 0 <= k < d ==> p[k] == '.')
             || (exists j :: d < j < |p| && p[j] == '/')
    ensures Splitext(p).1 == ""
  {
  }

  /** When pdfminer yields text, PyPDF2 is never consulted: its behaviour cannot change the result. */
  lemma PdfSecondStepUnused(f: UploadedFile, ex: Extractors, reader: Option<seq<bv8> -> ReaderRun>)
    requires Extension(FileName(f.filename)) == ".pdf"
    requires MinerText(f.content, ex) != ""
    ensures ExtractText(f, ex) == ExtractText(f, ex.(pyPdf := reader))
    ensures ExtractText(f, ex) == Success(Strip(MinerText(f.content, ex)))
  {
  }

  /**
    When pdfminer is missing, raised or gave nothing, the PyPDF2 pages are
    joined by newlines; the call raises only if that join is itself empty.
  */
  lemma PdfFallsBackToPages(f: UploadedFile, ex: Extractors, pages: seq<Option<string>>)
    requires Extension(FileName(f.filename)) == ".pdf"
    requires MinerText(f.content, ex) == ""
    requires ex.pyPdf.Some? && ex.pyPdf.value(f.content) == ReaderPages(pages)
    ensures JoinPages(pages) == "" ==> ExtractText(f, ex) == Failure(NoPdfText)
    ensures JoinPages(pages) != "" ==> ExtractText(f, ex) == Success(Strip(JoinPages(pages)))
  {
  }

  /** Both PDF steps failing or missing raises, whatever the bytes. */
  lemma PdfBothStepsFail(f: UploadedFile, ex: Extractors)
    requires Extension(FileName(f.filename)) == ".pdf"
    requires MinerText(f.content, ex) == ""
    requires ex.pyPdf.None? || ex.pyPdf.value(f.content) == ReaderRaised
    ensures ExtractText(f, ex) == Failure(NoPdfText)
  {
  }

  /**
    The emptiness check precedes stripping: whitespace-only text, or two
    blank pages (joined to "\n"), passes it and the call returns "".
  */
  lemma PdfBlankTextReturnsEmpty(f: UploadedFile, ex: Extractors)
    requires Extension(FileName(f.filename)) == ".pdf"
    requires ex.pdfMiner.None?
    requires ex.pyPdf.Some? && ex.pyPdf.value(f.content) == ReaderPages([None, Some("")])
    ensures ExtractText(f, ex) == Success("")
  {
    var pages: seq<Option<string>> := [None, Some("")];
    assert PageTexts(pages[1..]) == [""];
    assert PageTexts(pages) == ["", ""];
    assert Join("\n", ["", ""]) == "" + "\n" + Join("\n", [""]);
    assert JoinPages(pages) == "\n";
    assert MinerText(f.content, ex) == "";
    assert PdfText(f.content, ex) == Success("\n");
    assert IsSpace("\n"[0]);
    StripEmptyIff("\n");
  }

  /**
    DOCX text is the stripped newline-join of the paragraphs. When there is
    at least one paragraph and none holds a newline, the paragraphs can be
    read back, in document order, from the join before it is stripped. A
    document with no paragraphs is not recoverable this way: it reads the
    same as one empty paragraph.
  */
  lemma DocxParagraphsInOrder(f: UploadedFile, ex: Extractors, ps: seq<string>)
    requires Extension(FileName(f.filename)) == ".docx"
    requires ex.docx(f.content) == DocxParagraphs(ps)
    ensures ExtractText(f, ex) == Success(Strip(Join("\n", ps)))
    ensures |ps| > 0 && (forall i :: 0 <= i < |ps| ==> '\n' !in ps[i]) ==>
              SplitOn(Join("\n", ps), '\n') == ps
  {
    if |ps| > 0 && (forall i :: 0 <= i < |ps| ==> '\n' !in ps[i]) {
      SplitJoin(ps, '\n');
    }
  }

  /** A DOCX parse failure raises; there is no further fallback. */
  lemma DocxFailureRaises(f: UploadedFile, ex: Extractors)
    requires Extension(FileName(f.filename)) == ".docx"
    requires ex.docx(f.content) == DocxRaised
    ensures ExtractText(f, ex) == Failure(DocxUnreadable)
  {
  }
}

=== FILE: wrappers.dfy ===
/** Failure-carrying values used in place of Python's `None` and exceptions. */
module Wrappers {

  datatype Option<+T> = None | Some(value: T) {
    function GetOr(default: T): T {
      match this
      case Some(v) => v
      case None => default
    }
  }

  datatype Result<+R, +E> = Success(value: R) | Failure(error: E)
}
